=== FILE: README.md ===
# wecom-backend chat core in Dafny

This project models the request-handling core of wecom-backend. That service answers WeCom (enterprise WeChat) application messages and WeChat official-account messages with replies from a chat model: OpenAI, Gemini or Claude.

The model covers five parts:

- **The multi-provider chatbot** (`Chatbot`), with its helpers:
  - the per-user response slots and the operations on them (`ResponseCache`);
  - the bounded conversation histories and how they are shaped for each provider (`ChatSession`);
  - the "继续" (continue) command;
  - the single-flight rule, which allows one question in flight per user;
  - the fixed provider priority;
  - the waiter that pushes a finished answer to the user.
- **The OpenAI client** (`OpenAIClient`, `StreamReader`, `OpenAIMessage`):
  - the status check and the handler table;
  - the event-stream path and the plain JSON path;
  - the `text/event-stream` frame reader;
  - the background loop that gathers the streamed fragments and hands them over through a capacity-1 channel (`Mailbox`).
- **The older OpenAI-only orchestrator** (`LegacyChatbot`). It has the same shape with different constants and a different order of steps.
- **The WeCom front end** (`WeCom`):
  - the message-type dispatch table;
  - the per-`MsgId` in-flight set of the text handler;
  - the reply envelope (`Transport`);
  - the access-token cache;
  - the error conditions of pushing a message.
- **The WeChat front end** (`WeChat`):
  - the signature check, which sorts three strings, joins them and hashes them with SHA-1;
  - the dispatch table;
  - the in-flight set, whose duplicate branch returns with the mutex held.

### How the model represents the system

- **State is immutable data.** Every operation is a pure function from the old state to the new one.
- **Slots are shared objects.** A slot is shared between the map, the request and the goroutines, so the cache maps user ids to object ids in a heap.
- **Channels are mailboxes.** A Go `chan string` of capacity 1 is a mailbox: `Empty`, `Holding(v)` or `Closed`.
- **A mutex that is never released is a `locked` flag.** The call that would then wait forever returns `Blocked`.
- **Goroutines are separate steps.** Each goroutine is a step applied to the state the request returned: `DeliverStream`, `CompleteProvider` and `WaiterStep`.
- **Outside effects are parameters.**
  - Time is a parameter. The stream loop reads a clock trace with one reading per iteration.
  - HTTP exchanges, JSON and XML decoding, SHA-1, encryption, publisher success and provider replies are all parameters.

## Model

| member | source | states |
|---|---|---|
| Text.TrimSpaceSpec | pkg/chatbot/chatbot.go:477 | trimming drops only white space on both sides and leaves none at either end, as `strings.TrimSpace` does before the input is compared with "继续" |
| Text.TrimSpace | pkg/openai-v1/stream_reader.go:40 | a line with no white space at either end is unchanged by trimming |
| Text.TrimLeftSpec | pkg/openai-v1/stream_reader.go:40 | the left trim removes exactly the leading run of white space |
| Text.TrimRightSpec | pkg/openai-v1/stream_reader.go:40 | the right trim removes exactly the trailing run of white space |
| Text.TrimPrefix | pkg/openai-v1/stream_reader.go:52 | when the header is present, the header followed by the result is the line; otherwise the line is unchanged |
| Mailbox.TrySend | pkg/openai-v1/client.go:154-159 | the non-blocking send succeeds exactly when the channel is empty and then holds the text; a full channel drops the text; a closed one panics |
| Mailbox.BlockingPut | pkg/chatbot/chatbot.go:642 | a blocking send completes only into an empty channel; otherwise it waits and nothing changes |
| Mailbox.Close | pkg/chatbot/chatbot.go:586 | closing succeeds unless the channel is already closed; an empty channel becomes closed |
| Mailbox.TryReceive | pkg/chatbot/chatbot.go:199 | a receive waits on an empty channel, takes the value from a full one and leaves it empty, and yields "" from a closed one |
| OpenAIMessage.MessageContentsAppend | pkg/openai-v1/message.go:103-110 | the content of concatenated choice lists is the concatenation of their contents |
| OpenAIMessage.DeltaContentsAppend | pkg/openai-v1/message.go:89-91 | the same holds for streamed fragments (`GetDeltaContent` over the choices) |
| OpenAIMessage.ContentIgnoresDelta | pkg/openai-v1/message.go:103-110 | `GetContent` reads only each choice's message text, so choices that agree there give the same content |
| OpenAIMessage.DeltaIgnoresMessage | pkg/openai-v1/message.go:89-91 | fragment text reads only each choice's delta |
| OpenAIMessage.ComputeContent | pkg/openai-v1/message.go:103-110 | the loop yields the in-order concatenation of the message texts: "" for no choices, the one text for a single choice |
| OpenAIMessage.GetMessageType | pkg/openai-v1/message.go:25-27 | the stored message type is returned unchanged |
| OpenAIMessage.GetDeltaContent | pkg/openai-v1/message.go:89-91 | a choice's fragment text is its delta's content, whatever its message holds |
| OpenAIMessage.GetContent | pkg/openai-v1/message.go:103-110 | the first choice's message text followed by the rest in order; "" for no choices, the one text for a single choice |
| StreamReader.DataIndex | pkg/openai-v1/stream_reader.go:33-50 | this is the position of the first line that starts with `data: ` once trimmed; no earlier line does |
| StreamReader.Deliver | pkg/openai-v1/stream_reader.go:52-62 | the `[DONE]` payload finishes the reader with `io.EOF` and keeps the previous choices; a payload that decodes replaces the choices with no error; one that does not is a decode error with the reader unchanged and unfinished; no further input is consumed |
| StreamReader.ReadFrame | pkg/openai-v1/stream_reader.go:33-62 | the `waitForData` loop does one of three things. The 11th skipped line returns the too-many-empty-messages error. Running out of input returns the read error unchanged. Otherwise it consumes lines up to and including the first frame line and handles that line's payload |
| StreamReader.SkipStep | pkg/openai-v1/stream_reader.go:41-49 | skipping one non-frame line and counting it gives the same outcome as reading from the line before |
| StreamReader.Recv | pkg/openai-v1/stream_reader.go:25-65 | a finished reader returns `io.EOF` and reads nothing; otherwise the call reads one frame with the skip count starting from zero |
| OpenAIClient.HandleChatMessage | pkg/openai-v1/client.go:97-179 | an event stream returns at once with exactly one choice holding the placeholder, plus a fresh reader of the body; a JSON body is read and decoded: a read failure and a decode failure each come back as their own error, and a success carries exactly the decoded choices and no reader |
| OpenAIClient.HandleMessage | pkg/openai-v1/client.go:88-95 | only the chat-completions path has a handler; any other path is an unsupported-message-type error |
| OpenAIClient.Post | pkg/openai-v1/client.go:46-86 | a transport error or a status other than 200 is returned as an error before any handler runs; a success implies status 200 and a registered path |
| OpenAIClient.CapIndex | pkg/openai-v1/client.go:143-147 | this is the first loop iteration at which 60 seconds have passed since the loop began |
| OpenAIClient.Pump | pkg/openai-v1/client.go:128-148 | the loop as written ends only when the reader finishes, when a non-EOF error occurs, or at the 60-second cap; `io.EOF` never ends it |
| OpenAIClient.PumpCorrected | pkg/openai-v1/client.go:128-148 | the corrected loop ends as finished exactly when the reader is finished |
| OpenAIClient.RunStream | pkg/openai-v1/client.go:150-159 | after the loop exactly one non-blocking send is made: an empty channel then holds the gathered text, and a full one drops it; the text is that of the corrected loop (see "## Left out") |
| OpenAIClient.FrameLines | pkg/openai-v1/stream_reader.go:39-41 | each payload becomes a line that starts with the `data: ` header |
| OpenAIClient.FrameLineReadsBack | pkg/openai-v1/stream_reader.go:40-52 | the reader reads a frame line back as exactly its own payload |
| OpenAIClient.RecvGoodFrame | pkg/openai-v1/stream_reader.go:33-64 | a frame with a decodable payload is returned without error; it replaces the reader's response and consumes one line |
| OpenAIClient.RecvDone | pkg/openai-v1/stream_reader.go:52-57 | the `[DONE]` line finishes the reader with `io.EOF` and leaves the previous frame's response in place |
| OpenAIClient.PumpFrameStep | pkg/openai-v1/client.go:128-141 | one iteration of the as-written loop appends the fragments of the frame just read |
| OpenAIClient.PumpCorrectedFrameStep | pkg/openai-v1/client.go:128-141 | the same holds for the corrected loop |
| OpenAIClient.ClockTail | pkg/openai-v1/client.go:143-147 | the cap is still ahead after one iteration under the cap |
| OpenAIClient.LastResponseTail | pkg/openai-v1/stream_reader.go:59-62 | the reader keeps the choices of the last decoded frame |
| OpenAIClient.DoneReappendsLastFrame | pkg/openai-v1/client.go:128-141 | for frames followed by `[DONE]`, the as-written loop delivers every frame's fragments and then the last frame's fragments once more |
| OpenAIClient.OneFrameDeliveredTwice | pkg/openai-v1/client.go:128-141 | a single frame "Hi" followed by `[DONE]` delivers "HiHi" |
| OpenAIClient.ExhaustedInputSpins | pkg/openai-v1/client.go:128-148 | when input ends without `[DONE]`, the as-written loop spins until the cap and appends the last fragments once per spin |
| OpenAIClient.CorrectedDeliversFrames | pkg/openai-v1/client.go:128-141 | the corrected loop delivers each frame's fragments exactly once, in order, and ends finished |
| OpenAIClient.CorrectedStopsAtInputEnd | pkg/openai-v1/stream_reader.go:33-37 | the corrected loop stops at the end of input, with nothing appended |
| OpenAIClient.RunStreamDeliversFrames | pkg/openai-v1/client.go:119-160 | with the corrected loop, a well-formed stream leaves exactly its frames' text in an empty channel |
| OpenAIClient.AsWrittenGoroutinePushes | pkg/openai-v1/client.go:119-160 | the goroutine as written leaves the frames' text followed by the last frame's fragments once more in an empty channel |
| ChatSession.LastN | pkg/chatbot/chatbot.go:276 | the Redis read window is the last min(6, n) entries of the list |
| ChatSession.Push | pkg/chatbot/chatbot.go:264-268 | the history stays within 6 entries and ends with the new message; the old history loses its front entry only when 6 were held |
| ChatSession.PushIsWindow | pkg/chatbot/chatbot.go:264-268 | appending to the bounded in-memory list equals taking the last 6 of the whole log |
| ChatSession.Replay | pkg/chatbot/chatbot.go:264-268 | any sequence of appends keeps at most 6 entries |
| ChatSession.ReplayIsLastWindow | pkg/chatbot/chatbot.go:264-276 | the in-memory history after any number of appends equals the Redis read window of the same messages |
| ChatSession.AddChatSessionCtx | pkg/chatbot/chatbot.go:226-270 | only this user's history changes, and it gains the new message with its time, role and provider |
| ChatSession.AddKeepsBounded | pkg/chatbot/chatbot.go:264-266 | every history stays within 6 entries |
| ChatSession.RedisKeySeparatesProviders | pkg/chatbot/chatbot.go:239 | the Redis key differs for different provider names |
| ChatSession.InMemoryHistoryIgnoresProvider | pkg/chatbot/chatbot.go:254-268 | the in-memory history is keyed by user only, so the provider name of a stored message never changes what is read back |
| ChatSession.GetChatSessionCtx | pkg/chatbot/chatbot.go:299-343 | the result is the prefix followed by the stored history in order, with role "ai" mapped to "assistant"; without a history it is the prefix |
| ChatSession.ClaudeNormalizeFromSpec | pkg/chatbot/chatbot.go:387-403 | the normalised history is empty or starts with "user", has no two adjacent equal roles, and is no longer than its input; it is empty exactly when no entry has role "user" |
| ChatSession.ClaudeCandidates | pkg/chatbot/chatbot.go:345-385 | the candidates are the prefix followed by the stored history entry by entry, with role "ai" mapped to "assistant" and the text kept |
| ChatSession.GetClaudeChatSessionCtx | pkg/chatbot/chatbot.go:345-404 | the result is shaped for Claude, draws only on the candidates, and is empty exactly when no candidate has role "user" |
| ChatSession.ClaudeContextEndsWithInput | pkg/chatbot/chatbot.go:387-403 | after the input is stored, the Claude history ends with it as a "user" message |
| ChatSession.ClaudeRepeatedRoleKeepsLater | pkg/chatbot/chatbot.go:394-398 | for any history, of two adjacent messages with the same role the earlier one can be removed without changing the result: the later one replaces it |
| ChatSession.ClaudeStepAbsorbs | pkg/chatbot/chatbot.go:388-401 | two loop steps with the same role have the effect of the second alone |
| ChatSession.DropToUser | pkg/chatbot/chatbot.go:389-392 | the result is a suffix of the history that is empty or starts with a "user" message |
| ChatSession.ClaudeNormalizeIsRunEnds | pkg/chatbot/chatbot.go:387-403 | the loop equals a loop-free definition: drop what precedes the first "user" message, then keep only the last message of each run of equal roles |
| ChatSession.GeminiCandidates | pkg/chatbot/chatbot.go:432-454 | the history is mapped entry by entry, with role "ai" becoming "model" |
| ChatSession.NonModelCount | pkg/chatbot/chatbot.go:456-463 | the count of non-"model" entries is at most the length |
| ChatSession.GetGeminiChatSessionCtx | pkg/chatbot/chatbot.go:456-471 | the mapped history is used unchanged exactly when the non-"model" entries number half its length (rounded down); otherwise the result is empty |
| ChatSession.GeminiRejectsThreeUsersOneModel | pkg/chatbot/chatbot.go:466-469 | three user messages and one reply are rejected |
| ChatSession.GeminiAcceptsNonAlternating | pkg/chatbot/chatbot.go:456-471 | the check counts entries and does not test alternation: the history ai, user, user, ai (sent as model, user, user, model, with two adjacent "user" entries) is accepted |
| ChatSession.NonModelCountAlternating | pkg/chatbot/chatbot.go:456-463 | a strictly alternating user/model list of even length counts exactly half its entries as non-"model" |
| ChatSession.GeminiAcceptsAlternating | pkg/chatbot/chatbot.go:456-471 | every history that alternates "user" and "ai" in complete pairs passes the check and is sent whole, as alternating "user"/"model" entries |
| ResponseCache.IsProcessing | pkg/chatbot/chatbot.go:126-137 | a request is in flight exactly when a slot exists that is at most the lifetime old; an older slot is deleted on the way; nothing else changes |
| ResponseCache.PreHitProcess | pkg/chatbot/chatbot.go:140-150 | this is the slot's cached text, or "" without a slot |
| ResponseCache.BuildChatCache | pkg/chatbot/chatbot.go:154-171 | an existing slot keeps its object, text, provider and channel and gets a new time; otherwise a new object with no text and an empty channel is mapped; other users are untouched |
| ResponseCache.ClearChatCache | pkg/chatbot/chatbot.go:174-179 | exactly this user's entry is removed; the slot objects are untouched |
| ResponseCache.SetSlot | pkg/chatbot/chatbot.go:208 | a write through a slot pointer changes that object only |
| ResponseCache.DeliverStream | pkg/openai-v1/client.go:119-160 | the stream goroutine, run with the corrected loop, fills an empty channel of its slot with that loop's text and changes no other object |
| ResponseCache.ExpiredSlotIsReplaced | pkg/chatbot/chatbot.go:131-168 | after expiry the next request gets a new object with no cached text |
| Chatbot.WaitChatResponse | pkg/chatbot/chatbot.go:187-195 | with a slot, a waiter starts on that object; without one the call returns still holding the cache mutex |
| Chatbot.Tag | pkg/chatbot/chatbot.go:498-506 | the provider name is written on the user's slot and nothing else changes |
| Chatbot.OpenAIRequest | pkg/chatbot/chatbot.go:512-555 | the input is stored before the whole history is sent. A failed `Post` returns the error with empty text and removes the slot. A success returns the response content and starts the waiter |
| Chatbot.ClaudeRequest | pkg/chatbot/chatbot.go:557-595 | the input is stored, the normalised history is sent, a waiter starts, and the pending notice is returned |
| Chatbot.GeminiRequest | pkg/chatbot/chatbot.go:597-652 | the history is taken before the input is stored, the input is sent separately, a waiter starts, and the pending notice is returned |
| Chatbot.Prepared | pkg/chatbot/chatbot.go:485-496 | the request starts from a mapped slot |
| Chatbot.GetResponse | pkg/chatbot/chatbot.go:475-510 | the call blocks exactly when the cache mutex was leaked; otherwise it returns with the mutex free, and any waiter watches an allocated slot |
| Chatbot.CompleteProvider | pkg/chatbot/chatbot.go:580-644 | a reply goes into the slot's channel; a failure stores its text in the slot and closes the channel |
| Chatbot.GeminiCompletion | pkg/chatbot/chatbot.go:606-644 | the Gemini goroutine replies exactly when the first candidate has content whose first part is text; otherwise it fails with the matching error text |
| Chatbot.WaiterStep | pkg/chatbot/chatbot.go:197-223 | within 120 s, non-empty text is stored as an "ai" message, cached and pushed, while "" (a closed channel) pushes the cached text. A successful push removes the user's slot. A failed push or a timeout keeps it |
| Chatbot.ContinueCommandSemantics | pkg/chatbot/chatbot.go:477-484 | "继续" returns non-empty cached text and removes the slot; otherwise it returns the still-generating notice with no state change; no provider is called |
| Chatbot.SingleFlight | pkg/chatbot/chatbot.go:485-486 | while a slot is in flight, any other input gets the busy notice and nothing changes |
| Chatbot.ProviderRouting | pkg/chatbot/chatbot.go:496-509 | exactly the first configured provider of OpenAI, Gemini, Claude is called, and the input is stored once; with none configured, "no ai support" is returned and the new slot stays |
| Chatbot.OpenAIContext | pkg/chatbot/chatbot.go:514-517 | OpenAI receives the history ending with the input as a "user" message |
| Chatbot.GeminiContext | pkg/chatbot/chatbot.go:602-647 | Gemini receives the history from before the input |
| Chatbot.ClaudeContext | pkg/chatbot/chatbot.go:559-562 | Claude receives a normalised history ending with the input |
| Chatbot.CallWaitsOnFreshSlot | pkg/chatbot/chatbot.go:496-551 | a provider call that did not fail leaves a waiter on a new slot with no text, the provider's name and an empty channel |
| Chatbot.PostFailureClearsSlot | pkg/chatbot/chatbot.go:538-542 | a failed `Post` returns its error with empty text and removes the slot |
| Chatbot.LeakedLockBlocksEveryRequest | pkg/chatbot/chatbot.go:188-194 | once `WaitChatResponse` misses the slot, every later request of any user blocks |
| Chatbot.WaiterClearsNewerSlot | pkg/chatbot/chatbot.go:218 | a waiter's successful push removes the user's current slot even if that is a newer slot than the one it watched |
| Chatbot.RequestKeepsHistoriesBounded | pkg/chatbot/chatbot.go:264-266 | a request keeps every history within 6 entries |
| Chatbot.WaiterKeepsHistoriesBounded | pkg/chatbot/chatbot.go:206-266 | so does a waiter |
| Chatbot.FailureIsPushed | pkg/chatbot/chatbot.go:197-218 | a provider failure reaches the user as its error text, and nothing is stored in the history |
| Chatbot.ContinueAfterFailedPush | pkg/chatbot/chatbot.go:208-215 | a reply whose push failed is returned by a later "继续" |
| Chatbot.StreamedAnswerIsPushed | pkg/chatbot/chatbot.go:512-555 | a streamed answer end to end, with the corrected stream loop: the placeholder is returned, the frames' text is pushed and stored as the reply, and the slot is removed |
| Chatbot.JsonAnswerStrandsSlot | pkg/chatbot/chatbot.go:551-553 | a plain JSON answer never feeds the channel, so its waiter times out and the user stays busy for the slot lifetime |
| LegacyChatbot.AddChatSessionCtx | internal/pkg/chatbot/chatbot.go:166-195 | only this user's history changes; it keeps at most 6 entries and ends with the message tagged "user" or "assistant" |
| LegacyChatbot.GetChatSessionCtx | internal/pkg/chatbot/chatbot.go:197-213 | the result is the prefix followed by the stored history in order, or the prefix alone |
| LegacyChatbot.Accept | internal/pkg/chatbot/chatbot.go:236-257 | the input is stored before the slot is built; the slot is reused with a new time, or created empty |
| LegacyChatbot.Ask | internal/pkg/chatbot/chatbot.go:237-274 | the whole history is sent. A failed `Post` returns the error and starts no waiter. A success returns the content and starts the waiter |
| LegacyChatbot.GetResponse | internal/pkg/chatbot/chatbot.go:216-275 | a missing client is the only way to panic, and the panic keeps the stored input and the built slot; a reply keeps the cache consistent, and its waiter watches an allocated slot |
| LegacyChatbot.WaiterStepAsWritten | internal/pkg/chatbot/chatbot.go:132-162 | within 60 s, whatever the channel yields, even "", is stored as "assistant" and pushed, and a successful push deletes the slot; the cached text is never written |
| LegacyChatbot.WaiterStep | internal/pkg/chatbot/chatbot.go:132-162 | this is the same waiter, except that the received text is also cached on the slot |
| LegacyChatbot.RequestKeepsNoCachedText | internal/pkg/chatbot/chatbot.go:216-275 | no request writes any slot's cached text, not even one that panics |
| LegacyChatbot.StreamKeepsNoCachedText | pkg/openai-v1/client.go:119-160 | nor does the stream goroutine |
| LegacyChatbot.WaiterAsWrittenKeepsNoCachedText | internal/pkg/chatbot/chatbot.go:134-159 | nor does the waiter as written |
| LegacyChatbot.ContinueNeverDelivers | internal/pkg/chatbot/chatbot.go:218-225 | so "继续" always gets the please-wait prompt and changes nothing |
| LegacyChatbot.AsWrittenLosesUnpushedReply | internal/pkg/chatbot/chatbot.go:134-225 | a reply that arrived but could not be pushed is not returned by "继续" |
| LegacyChatbot.ContinueDeliversUnpushedReply | internal/pkg/chatbot/chatbot.go:218-222 | with the corrected waiter, "继续" returns that reply and removes the slot |
| LegacyChatbot.SingleFlight | internal/pkg/chatbot/chatbot.go:226-228 | while a slot is at most 600 s old, any other input gets the busy prompt and nothing is stored |
| LegacyChatbot.PostFailureKeepsSlot | internal/pkg/chatbot/chatbot.go:236-264 | the input is stored and sent as the last message; a failed `Post` returns the error and leaves the new slot in place |
| LegacyChatbot.PostFailureBlocksUser | internal/pkg/chatbot/chatbot.go:226-264 | after a failed `Post`, the user's next question within 600 s gets the busy prompt |
| LegacyChatbot.MissingClientPanics | internal/pkg/chatbot/chatbot.go:236-260 | without a client a new question crashes after storing the input and building the slot; both survive, so the next question within 600 s gets the busy prompt |
| LegacyChatbot.LateReplyIsDropped | internal/pkg/chatbot/chatbot.go:160 | the waiter gives up after 60 s although the slot lives 600 s |
| LegacyChatbot.EmptyReplyIsStored | internal/pkg/chatbot/chatbot.go:134-137 | an empty reply is still stored as an "assistant" message |
| Transport.Envelope | pkg/wecom/wecom.go:202-205 | the reply goes back to the sender, from the addressed account, stamped with the current time and typed text, and keeps the handler's text |
| WeCom.ParseType | pkg/wecom/message.go:10-21 | this is the declared message type with that name, if there is one |
| WeCom.HandlerFor | pkg/wecom/wecom.go:66-74 | a handler exists exactly for the registered types |
| WeCom.DispatchTable | pkg/wecom/wecom.go:66-74 | exactly text, image, voice, video, location, link and event are dispatched; file, news, markdown and shortvideo are not |
| WeCom.HandleTextMessage | pkg/wecom/wecom.go:146-224 | a parse failure is a 400. A duplicate `MsgId` gets the busy error without calling the handler. Every exit leaves the in-flight set as it was. A reply is the envelope of the handler's reply |
| WeCom.Handle | pkg/wecom/wecom.go:186-223 | a missing handler or a handler error is a 500; a non-text reply panics; a text reply is encrypted and written, and an encryption error is written before the body |
| WeCom.DuplicateIsRejected | pkg/wecom/wecom.go:158-177 | a duplicate is rejected without the handler; a new id reaches the handler exactly when one is registered |
| WeCom.ReplyIsEnvelope | pkg/wecom/wecom.go:199-205 | the reply swaps sender and receiver, is typed text, and carries the handler's text |
| WeCom.HandleMessageRequest | pkg/wecom/wecom.go:120-143 | a header error is a 400; an unregistered type is a 400 "Unsupported message type"; only text reaches the text handler |
| WeCom.GetAccessToken | pkg/wecom/wecom.go:255-304 | the cached token is used without fetching while its expiry is after the current time; only an answer with errcode 0 replaces the cache; any other result gives "" and leaves the cache unchanged |
| WeCom.FetchedTokenIsReused | pkg/wecom/wecom.go:263-301 | a fetched token is reused without fetching until its lifetime has passed |
| WeCom.FailedRefreshRetries | pkg/wecom/wecom.go:271-298 | a failed refresh leaves the cache expired, so the next call fetches again |
| WeCom.PushMessage | pkg/wecom/wecom.go:307-348 | an empty token fails with "access token is invalid" without sending; otherwise a transport error or a non-zero errcode is an error |
| WeCom.PushSucceedsIff | pkg/wecom/wecom.go:255-348 | a push succeeds exactly when a non-empty token is at hand and the server answers with errcode 0 |
| WeChat.LessEqTotal | pkg/wechat/wechat.go:109 | the string order is total |
| WeChat.LessEqAntisymmetric | pkg/wechat/wechat.go:109 | the string order is antisymmetric |
| WeChat.LessEqTransitive | pkg/wechat/wechat.go:109 | the string order is transitive |
| WeChat.Sort3 | pkg/wechat/wechat.go:107-109 | the result is the three strings, each once, in ascending byte order |
| WeChat.Sort3SwapLast | pkg/wechat/wechat.go:107-109 | sorting does not depend on the order of the last two arguments |
| WeChat.Sort3Unique | pkg/wechat/wechat.go:107-108 | the ascending arrangement of three strings is unique: whatever order they come in, sorting returns it |
| WeChat.SignatureInput | pkg/wechat/wechat.go:107-111 | the three strings joined without separator, so its length is the sum of theirs; strings already in ascending order are joined as given |
| WeChat.SignatureInputIsSortedJoin | pkg/wechat/wechat.go:107-111 | every ascending arrangement of token, timestamp and nonce, joined, is the hashed string |
| WeChat.ValidateSignature | pkg/wechat/wechat.go:106-119 | for arguments already in ascending order, a request is accepted exactly when the hex SHA-1 of their plain join equals the signature (any order: `WeChat.ValidateSignatureSorted`) |
| WeChat.ValidateSignatureSorted | pkg/wechat/wechat.go:106-119 | for any order of the arguments, a request is accepted exactly when the hex SHA-1 of the three strings joined in ascending order equals the signature |
| WeChat.ValidationIgnoresSwap | pkg/wechat/wechat.go:106-119 | with SHA-1 abstract, swapping the timestamp and the nonce never changes whether the signature is accepted |
| WeChat.HandlerFor | pkg/wechat/wechat.go:56-65 | a handler exists exactly for the eight declared types, shortvideo included |
| WeChat.HandleTextMessage | pkg/wechat/wechat.go:160-218 | a parse failure is a 400. A held mutex blocks. A duplicate `MsgId` gets the busy error and returns with the mutex held. A new id is released on every exit. A reply is the marshalled envelope |
| WeChat.DuplicateLeaksMutex | pkg/wechat/wechat.go:169-176 | after a duplicate, every later text message blocks |
| WeChat.AcceptedIdIsReleased | pkg/wechat/wechat.go:178-199 | a new id leaves the gate as it found it, and the handler is called exactly when one is registered |
| WeChat.ServeHTTP | pkg/wechat/wechat.go:68-157 | a bad signature is a 400 "Invalid signature" before anything else; GET echoes `echostr`; POST dispatches on the type, and an unknown type is a 400 |
| WeChat.BadSignatureIsRejectedFirst | pkg/wechat/wechat.go:72-77 | a bad signature never reaches a handler and changes nothing, whatever the method or body |

## Left out

- **Outside effects, which become parameters:**
  - HTTP serving and response writing;
  - XML and JSON encoding and decoding;
  - the WeCom message crypto `WXBizMsgCrypt`, whose encryption result is a parameter and whose request decryption is not modelled;
  - SHA-1 and its hex rendering;
  - the publisher;
  - the Claude and Gemini clients and the Redis client.
- **Concurrency.** Goroutines, mutexes and channels become sequential steps. Interleavings inside one operation are not explored, except for the leaked mutexes, which are `locked` flags.
- **Redis.** With a Redis client, `AddChatSessionCtx` and the `GetChatSessionCtx` family read and write Redis lists (pkg/chatbot/chatbot.go:237-252, 272-297). Only the key and the last-6 read window (`ChatSession.LastN`) are modelled; the history functions follow the in-memory branch.
- **Frame decoding** is a parameter that replaces the reader's choices with the decoded ones. Go's `json.Unmarshal` into an existing value can keep fields of the old value when the new frame omits them; that merging is not modelled.
- **Post's HTTP client.** `Post` replaces a non-nil client with a default one and would dereference a nil one (pkg/openai-v1/client.go:59-61). The exchange is a parameter, so that inverted check is not modelled.
- **Push messages.** `PushTextMessage` and `PushMarkdowntMessage` (pkg/wecom/wecom.go:351-400) build push messages whose fields do not match the declared push-message type. Only `pushMessage`'s error conditions are modelled.
- **WeCom `ServeHTTP`.** Its URL verification and decryption (pkg/wecom/wecom.go:77-117) are crypto. Only the dispatch after decryption (`WeCom.HandleMessageRequest`) is modelled.
- **WeCom.GetAccessToken:** the source reads the clock twice, once for the check and once for the new expiry; both are one `now` here.
- **LegacyChatbot.GetResponse:** when `WaitChatResponse` finds no slot, the older snapshot starts a waiter on a nil pointer. `Ask` is only called with a mapped slot, so that crash is not reachable in the model and is not modelled.
- **XML marshal failures.** The failure of `xml.Marshal` in the WeChat text handler (pkg/wechat/wechat.go:207-214, `WeChat.HandleTextMessage`) and in the WeCom handler (pkg/wecom/wecom.go:206-213, `WeCom.Handle`) is not modelled; a reply is always marshalled.
- **WeChat.ServeHTTP:** the GET echo is written through `fmt.Fprintf` with `echostr` as the format string, so an `echostr` containing `%` would be altered. The model writes it verbatim.
- **WeChat.HandleTextMessage:** the marshalled reply is also written through `fmt.Fprintf` as the format string (pkg/wechat/wechat.go:217), so a `%` in the chat answer would be altered or expanded. The model writes `Marshalled(reply)` as it is.
- **WeCom.Handle:** the encrypted reply is written through `fmt.Fprintf` as the format string too (pkg/wecom/wecom.go:223). The model writes the encryption result, a parameter, as `Body` unchanged.
- **OpenAIClient.RunStream:** the goroutine runs the corrected loop (`PumpCorrected`), not the loop as written (`Pump`). The program pushes the frames' text followed by the last frame's fragments once more (`OpenAIClient.AsWrittenGoroutinePushes`), and without `[DONE]` it pushes only at the 60 s cap (see "## Findings").
- **OpenAIClient.RunStreamDeliversFrames:** states what the corrected goroutine delivers; the program's goroutine delivers the text of `OpenAIClient.AsWrittenGoroutinePushes`.
- **ResponseCache.DeliverStream:** fills the slot's channel through `OpenAIClient.RunStream`, so with the corrected loop's text.
- **Chatbot.StreamedAnswerIsPushed:** the pushed and stored reply is the corrected loop's text; the program would push and store the frames' text followed by the last frame's fragments again.
- **Mailbox.Close:** closing a channel that still holds a value keeps it `Holding`. A later receive then sees `Empty` rather than `Closed`. No goroutine in the core both sends and closes.
- **Strings are sequences of Unicode scalar values.** Go strings are byte sequences and may hold invalid UTF-8, for example query parameters. On valid UTF-8, ordering by code point (`WeChat.LessEq`) is the same as Go's byte order; invalid UTF-8 is not represented.
- **Integer widths.** `MsgId` is a 64-bit integer in the source and an unbounded `int` here; Unix times and `expires_in` are likewise unbounded. No arithmetic in the core gets near the bounds.
- **Outside the core:**
  - the start-up code in cmd/ and the services and handler registry in internal/pkg/service and internal/pkg/handler;
  - configuration structs;
  - the unused pkg/openai_v1 package;
  - the other WeCom and WeChat message handlers, which write nothing.
- **Behaviour the code has that its messages do not suggest:**
  - "继续" without cached text returns the still-generating notice. There is no separate "nothing to continue" reply.
  - The Gemini history check counts non-"model" entries rather than checking that roles alternate (`ChatSession.GeminiAcceptsNonAlternating`).

## Findings

| source | as written | input that shows it | evidently intended | confidence | as-written member | corrected member |
|---|---|---|---|---|---|---|
| pkg/openai-v1/client.go:128-141 | fragments are appended after every `Recv` that returned nil or `io.EOF`; the `[DONE]` call returns `io.EOF` with the previous frame's choices still in the reader | one frame with delta "Hi" followed by `data: [DONE]` delivers "HiHi" | each frame's fragments appended once: "Hi" | not executed; high | OpenAIClient.OneFrameDeliveredTwice | OpenAIClient.CorrectedDeliversFrames |
| pkg/openai-v1/client.go:128-148 | at the end of input `Recv` returns `io.EOF` without setting `isFinished`, so the loop keeps calling it | a body that ends after its frames without `[DONE]`: the loop runs until the 60 s cap and appends the last fragments on every spin | stop at the end of input | not executed; high | OpenAIClient.ExhaustedInputSpins | OpenAIClient.CorrectedStopsAtInputEnd |
| internal/pkg/chatbot/chatbot.go:134-159 | the waiter stores and pushes the received text but never writes it to the slot's cached text, which is what "继续" reads | a reply arrives, the push fails, and the user sends "继续": the answer is the please-wait prompt forever | the received text is cached, so "继续" returns it | not executed; medium | LegacyChatbot.AsWrittenLosesUnpushedReply | LegacyChatbot.ContinueDeliversUnpushedReply |

=== FILE: chat_session.dfy ===
/**
 * Per-user conversation history of the chatbot (in-memory backing) and the
 * provider-specific views of it: OpenAI messages, Claude's "starts with
 * user, no repeated roles" list, Gemini's count-checked history.
 *
 * The durable backing is represented only by its key string and by the
 * window its read returns (the last six entries of an append-only list).
 */
module ChatSession {
  import OpenAIMessage

  const MaxChatSessionCtxLength := 6

  const RoleUser := "user"
  const RoleAI := "ai"
  const RoleAssistant := "assistant"
  const RoleModel := "model"

  const AINameOpenAI := "openai"
  const AINameGemini := "gemini"
  const AINameClaude := "claude"

  /** One stored message: text, Unix time, role (`user` or `ai`) and the provider that was asked. */
  datatype ChatMessage = ChatMessage(content: string, ts: int, role: string, ai: string)

  /** The in-memory histories, keyed by user id alone. */
  type Histories = map<string, seq<ChatMessage>>

  datatype ClaudeMessage = ClaudeMessage(role: string, content: string)

  /** A Gemini history entry with its single text part. */
  datatype GeminiContent = GeminiContent(role: string, text: string)

  /** The history of `user`, empty when none was ever created. */
  function HistoryOf(hs: Histories, user: string): seq<ChatMessage> {
    if user in hs then hs[user] else []
  }

  // ----- the bounded history -----

  /** The last `n` entries of `log` (all of it when shorter). */
  function LastN<T>(log: seq<T>, n: nat): (w: seq<T>)
    ensures |w| == if |log| < n then |log| else n
    ensures w == log[|log| - |w|..]
  {
    if |log| <= n then log else log[|log| - n..]
  }

  /**
   * The list update of `AddChatSessionCtx`: when six or more are held the
   * front one is removed, then the new message goes to the back.
   */
  function Push<T>(h: seq<T>, m: T): (r: seq<T>)
    ensures |h| <= MaxChatSessionCtxLength ==> |r| <= MaxChatSessionCtxLength
    ensures |r| > 0 && r[|r| - 1] == m
    ensures r[..|r| - 1] == if |h| >= MaxChatSessionCtxLength then h[1..] else h
  {
    if |h| >= MaxChatSessionCtxLength then h[1..] + [m] else h + [m]
  }

  /** On a bounded history, Push keeps exactly the last six entries of the history followed by `m`. */
  lemma PushIsWindow<T>(h: seq<T>, m: T)
    requires |h| <= MaxChatSessionCtxLength
    ensures Push(h, m) == LastN(h + [m], MaxChatSessionCtxLength)
  {
  }

  /** The history built by pushing every message of `log` in turn, from nothing. */
  function Replay<T>(log: seq<T>): (h: seq<T>)
    ensures |h| <= MaxChatSessionCtxLength
  {
    if log == [] then [] else Push(Replay(log[..|log| - 1]), log[|log| - 1])
  }

  /**
   * The in-memory history is always the last six messages ever added, in
   * order: the same window a read of the durable list returns.
   */
  lemma {:induction false} ReplayIsLastWindow<T>(log: seq<T>)
    ensures Replay(log) == LastN(log, MaxChatSessionCtxLength)
    decreases |log|
  {
    if log != [] {
      var init, x := log[..|log| - 1], log[|log| - 1];
      assert init + [x] == log;
      ReplayIsLastWindow(init);
      PushIsWindow(Replay(init), x);
      LastNSnoc(init, x, MaxChatSessionCtxLength);
      assert Replay(log) == Push(Replay(init), x);
    }
  }

  /** Appending to a window and re-windowing is windowing the whole list. */
  lemma LastNSnoc<T>(s: seq<T>, x: T, n: nat)
    ensures LastN(LastN(s, n) + [x], n) == LastN(s + [x], n)
  {
    if |s| >= n {
      var t := s + [x];
      assert LastN(s, n) + [x] == t[|s| - n..];
    }
  }

  /** `AddChatSessionCtx` with the in-memory backing. */
  function AddChatSessionCtx(hs: Histories, user: string, content: string, role: string, ai: string, now: int): (r: Histories)
    ensures r.Keys == hs.Keys + {user}
    ensures forall u :: u in hs && u != user ==> r[u] == hs[u]
    ensures r[user] == Push(HistoryOf(hs, user), ChatMessage(content, now, role, ai))
  {
    hs[user := Push(HistoryOf(hs, user), ChatMessage(content, now, role, ai))]
  }

  /** Histories created by AddChatSessionCtx never exceed six entries. */
  ghost predicate Bounded(hs: Histories) {
    forall u :: u in hs ==> |hs[u]| <= MaxChatSessionCtxLength
  }

  lemma AddKeepsBounded(hs: Histories, user: string, content: string, role: string, ai: string, now: int)
    requires Bounded(hs)
    ensures Bounded(AddChatSessionCtx(hs, user, content, role, ai, now))
  {
  }

  /** The key of the durable list: `chatbot-<ai>-<user>`. */
  function RedisKey(ai: string, user: string): string {
    "chatbot-" + ai + "-" + user
  }

  /** The durable key separates providers: two providers never share one user's list. */
  lemma RedisKeySeparatesProviders(a: string, b: string, user: string)
    requires a in {AINameOpenAI, AINameGemini, AINameClaude}
    requires b in {AINameOpenAI, AINameGemini, AINameClaude}
    requires RedisKey(a, user) == RedisKey(b, user)
    ensures a == b
  {
    assert RedisKey(a, user)[8..14] == a;
    assert RedisKey(b, user)[8..14] == b;
  }

  /**
   * The in-memory history does not: a message stored while asking one
   * provider is the last entry of the OpenAI context built afterwards,
   * whichever provider it was stored for.
   */
  lemma InMemoryHistoryIgnoresProvider(hs: Histories, user: string, content: string, role: string, ai: string, now: int, prefix: seq<OpenAIMessage.ChatMessage>)
    ensures var ctx := GetChatSessionCtx(AddChatSessionCtx(hs, user, content, role, ai, now), user, prefix);
      ctx[|ctx| - 1] == OpenAIMessage.ChatMessage(AssistantRole(role), content)
  {
    var hs' := AddChatSessionCtx(hs, user, content, role, ai, now);
    assert HistoryOf(hs', user)[|HistoryOf(hs', user)| - 1] == ChatMessage(content, now, role, ai);
  }

  // ----- provider views -----

  /** The role sent to OpenAI and Claude: `ai` becomes `assistant`, anything else is kept. */
  function AssistantRole(role: string): string {
    if role == RoleAI then RoleAssistant else role
  }

  /** The role sent to Gemini: `ai` becomes `model`, anything else is kept. */
  function GeminiRole(role: string): string {
    if role == RoleAI then RoleModel else role
  }

  /** `GetChatSessionCtx`: `prefix`, then the stored history as OpenAI messages. */
  function GetChatSessionCtx(hs: Histories, user: string, prefix: seq<OpenAIMessage.ChatMessage>): (r: seq<OpenAIMessage.ChatMessage>)
    ensures user !in hs ==> r == prefix
    ensures |r| == |prefix| + |HistoryOf(hs, user)| && r[..|prefix|] == prefix
    ensures forall i :: 0 <= i < |HistoryOf(hs, user)| ==>
      r[|prefix| + i] == OpenAIMessage.ChatMessage(AssistantRole(hs[user][i].role), hs[user][i].content)
  {
    var h := HistoryOf(hs, user);
    prefix + seq(|h|, i requires 0 <= i < |h| => OpenAIMessage.ChatMessage(AssistantRole(h[i].role), h[i].content))
  }

  // Claude

  /** Claude's requirement on a history: starts with `user` and never repeats a role twice in a row. */
  ghost predicate ClaudeShaped(ms: seq<ClaudeMessage>) {
    && (ms == [] || ms[0].role == RoleUser)
    && (forall i :: 0 <= i < |ms| - 1 ==> ms[i].role != ms[i + 1].role)
  }

  /** One iteration of the normalising loop of `GetClaudeChatSessionCtx`. */
  function ClaudeStep(post: seq<ClaudeMessage>, m: ClaudeMessage): seq<ClaudeMessage> {
    if post == [] && m.role != RoleUser then post
    else if post != [] && post[|post| - 1].role == m.role then post[..|post| - 1] + [m]
    else post + [m]
  }

  /** The loop over `xs`, starting from `post`. */
  function ClaudeNormalizeFrom(post: seq<ClaudeMessage>, xs: seq<ClaudeMessage>): seq<ClaudeMessage>
    decreases |xs|
  {
    if xs == [] then post else ClaudeNormalizeFrom(ClaudeStep(post, xs[0]), xs[1..])
  }

  function ClaudeNormalize(xs: seq<ClaudeMessage>): seq<ClaudeMessage> {
    ClaudeNormalizeFrom([], xs)
  }

  predicate HasUser(xs: seq<ClaudeMessage>) {
    exists i :: 0 <= i < |xs| && xs[i].role == RoleUser
  }

  /** The loop keeps the shape, never grows past its input, and only keeps input messages. */
  lemma {:induction false} ClaudeNormalizeFromShape(post: seq<ClaudeMessage>, xs: seq<ClaudeMessage>)
    requires ClaudeShaped(post)
    ensures var r := ClaudeNormalizeFrom(post, xs);
      && ClaudeShaped(r)
      && |r| <= |post| + |xs|
      && (forall m :: m in r ==> m in post || m in xs)
    decreases |xs|
  {
    if xs != [] {
      var p := ClaudeStep(post, xs[0]);
      assert ClaudeShaped(p);
      assert forall m :: m in p ==> m in post || m == xs[0];
      ClaudeNormalizeFromShape(p, xs[1..]);
      assert forall m :: m in xs[1..] ==> m in xs;
    }
  }

  /** The loop ends empty exactly when it starts empty and meets no `user` message; otherwise it ends with the last input. */
  lemma {:induction false} ClaudeNormalizeFromEnd(post: seq<ClaudeMessage>, xs: seq<ClaudeMessage>)
    ensures var r := ClaudeNormalizeFrom(post, xs);
      && (post == [] && !HasUser(xs) ==> r == [])
      && ((post != [] || HasUser(xs)) ==> r != [])
      && ((post != [] || HasUser(xs)) && xs != [] ==> r[|r| - 1] == xs[|xs| - 1])
    decreases |xs|
  {
    if xs != [] {
      var p := ClaudeStep(post, xs[0]);
      ClaudeNormalizeFromEnd(p, xs[1..]);
      if post == [] && !HasUser(xs) {
        assert xs[0].role != RoleUser;
        assert !HasUser(xs[1..]) by {
          forall i | 0 <= i < |xs[1..]| ensures xs[1..][i].role != RoleUser {
            assert xs[1..][i] == xs[i + 1];
          }
        }
      }
      if post != [] || HasUser(xs) {
        if p == [] {
          var i :| 0 <= i < |xs| && xs[i].role == RoleUser;
          assert i != 0;
          assert xs[1..][i - 1].role == RoleUser;
        }
        if xs[1..] != [] {
          assert xs[1..][|xs[1..]| - 1] == xs[|xs| - 1];
        }
      }
    }
  }

  /**
   * The loop keeps the shape, never grows past its input, only keeps input
   * messages, and once a `user` message was kept ends with the last input.
   */
  lemma ClaudeNormalizeFromSpec(post: seq<ClaudeMessage>, xs: seq<ClaudeMessage>)
    requires ClaudeShaped(post)
    ensures var r := ClaudeNormalizeFrom(post, xs);
      && ClaudeShaped(r)
      && |r| <= |post| + |xs|
      && (forall m :: m in r ==> m in post || m in xs)
      && (post == [] && !HasUser(xs) ==> r == [])
      && ((post != [] || HasUser(xs)) ==> r != [])
      && ((post != [] || HasUser(xs)) && xs != [] ==> r[|r| - 1] == xs[|xs| - 1])
  {
    ClaudeNormalizeFromShape(post, xs);
    ClaudeNormalizeFromEnd(post, xs);
  }

  /** Claude's view of the prefixed, role-mapped history, before normalising. */
  function ClaudeCandidates(hs: Histories, user: string, prefix: seq<ClaudeMessage>): (r: seq<ClaudeMessage>)
    ensures |r| == |prefix| + |HistoryOf(hs, user)| && r[..|prefix|] == prefix
    ensures forall i :: 0 <= i < |HistoryOf(hs, user)| ==>
      r[|prefix| + i] == ClaudeMessage(AssistantRole(HistoryOf(hs, user)[i].role), HistoryOf(hs, user)[i].content)
  {
    var h := HistoryOf(hs, user);
    prefix + seq(|h|, i requires 0 <= i < |h| => ClaudeMessage(AssistantRole(h[i].role), h[i].content))
  }

  /** `GetClaudeChatSessionCtx`. */
  function GetClaudeChatSessionCtx(hs: Histories, user: string, prefix: seq<ClaudeMessage>): (r: seq<ClaudeMessage>)
    ensures ClaudeShaped(r)
    ensures |r| <= |prefix| + |HistoryOf(hs, user)|
    ensures forall m :: m in r ==> m in ClaudeCandidates(hs, user, prefix)
    ensures r == [] <==> !HasUser(ClaudeCandidates(hs, user, prefix))
  {
    var xs := ClaudeCandidates(hs, user, prefix);
    ClaudeNormalizeFromSpec([], xs);
    ClaudeNormalize(xs)
  }

  /** A user message just stored is the last message of Claude's normalised history. */
  lemma ClaudeContextEndsWithInput(hs: Histories, user: string, input: string, ai: string, now: int, prefix: seq<ClaudeMessage>)
    ensures var r := GetClaudeChatSessionCtx(AddChatSessionCtx(hs, user, input, RoleUser, ai, now), user, prefix);
      r != [] && r[|r| - 1] == ClaudeMessage(RoleUser, input)
  {
    var hs' := AddChatSessionCtx(hs, user, input, RoleUser, ai, now);
    var xs := ClaudeCandidates(hs', user, prefix);
    var h := HistoryOf(hs', user);
    var k := |h| - 1;
    assert h[k] == ChatMessage(input, now, RoleUser, ai);
    assert xs[|prefix| + k] == ClaudeMessage(AssistantRole(h[k].role), h[k].content);
    assert xs[|xs| - 1] == ClaudeMessage(RoleUser, input);
    assert HasUser(xs);
    ClaudeNormalizeFromEnd([], xs);
    assert GetClaudeChatSessionCtx(hs', user, prefix) == ClaudeNormalizeFrom([], xs);
  }

  /** Of two consecutive steps with the same role, the second undoes the first. */
  lemma ClaudeStepAbsorbs(p: seq<ClaudeMessage>, a: ClaudeMessage, b: ClaudeMessage)
    requires a.role == b.role
    ensures ClaudeStep(ClaudeStep(p, a), b) == ClaudeStep(p, b)
  {
    var q := ClaudeStep(p, a);
    if p != [] && p[|p| - 1].role != a.role {
      assert q[..|q| - 1] == p;
    }
  }

  /** The loop over `xs + ys` is the loop over `ys` continued from the loop over `xs`. */
  lemma {:induction false} ClaudeNormalizeFromAppend(post: seq<ClaudeMessage>, xs: seq<ClaudeMessage>, ys: seq<ClaudeMessage>)
    ensures ClaudeNormalizeFrom(post, xs + ys) == ClaudeNormalizeFrom(ClaudeNormalizeFrom(post, xs), ys)
    decreases |xs|
  {
    if xs == [] {
      assert xs + ys == ys;
    } else {
      assert (xs + ys)[0] == xs[0] && (xs + ys)[1..] == xs[1..] + ys;
      ClaudeNormalizeFromAppend(ClaudeStep(post, xs[0]), xs[1..], ys);
    }
  }

  /**
   * Of two adjacent messages with the same role the earlier one never
   * matters: wherever they stand, the history normalises as if only the
   * later one were there.
   */
  lemma ClaudeRepeatedRoleKeepsLater(xs: seq<ClaudeMessage>, a: ClaudeMessage, b: ClaudeMessage, ys: seq<ClaudeMessage>)
    requires a.role == b.role
    ensures ClaudeNormalize(xs + [a, b] + ys) == ClaudeNormalize(xs + [b] + ys)
  {
    var p := ClaudeNormalizeFrom([], xs);
    ClaudeNormalizeFromAppend([], xs, [a, b] + ys);
    ClaudeNormalizeFromAppend([], xs, [b] + ys);
    assert xs + [a, b] + ys == xs + ([a, b] + ys);
    assert xs + [b] + ys == xs + ([b] + ys);
    assert ([a, b] + ys)[1..] == [b] + ys;
    assert ([a, b] + ys)[1..][1..] == ys;
    assert ([b] + ys)[1..] == ys;
    ClaudeStepAbsorbs(p, a, b);
  }

  /** `xs` without the messages before its first `user` message. */
  function DropToUser(xs: seq<ClaudeMessage>): (r: seq<ClaudeMessage>)
    ensures |r| <= |xs| && r == xs[|xs| - |r|..]
    ensures r == [] || r[0].role == RoleUser
  {
    if xs == [] || xs[0].role == RoleUser then xs else DropToUser(xs[1..])
  }

  /** The messages of `xs` that end a run of equal roles: each one whose successor has another role, and the last. */
  function RunEnds(xs: seq<ClaudeMessage>): seq<ClaudeMessage> {
    if |xs| <= 1 then xs
    else if xs[0].role == xs[1].role then RunEnds(xs[1..])
    else [xs[0]] + RunEnds(xs[1..])
  }

  /** From a non-empty list the loop keeps all but its last message and the run ends of the rest. */
  lemma {:induction false} ClaudeNormalizeFromRunEnds(post: seq<ClaudeMessage>, xs: seq<ClaudeMessage>)
    requires post != []
    ensures ClaudeNormalizeFrom(post, xs) == post[..|post| - 1] + RunEnds([post[|post| - 1]] + xs)
    decreases |xs|
  {
    var last := post[|post| - 1];
    var init := post[..|post| - 1];
    assert post == init + [last];
    if xs == [] {
    } else {
      var p := ClaudeStep(post, xs[0]);
      ClaudeNormalizeFromRunEnds(p, xs[1..]);
      assert ([last] + xs)[1..] == xs;
      assert [xs[0]] + xs[1..] == xs;
      if last.role == xs[0].role {
        assert p == init + [xs[0]];
        assert p[..|p| - 1] == init;
      } else {
        assert p == post + [xs[0]];
        assert p[..|p| - 1] == post;
        assert init + ([last] + RunEnds(xs)) == post + RunEnds(xs);
      }
    }
  }

  /**
   * What the normalising loop computes, stated without the loop: the
   * messages before the first `user` one are dropped, and of every run of
   * equal roles after it only the last message is kept.
   */
  lemma {:induction false} ClaudeNormalizeIsRunEnds(xs: seq<ClaudeMessage>)
    ensures ClaudeNormalize(xs) == RunEnds(DropToUser(xs))
    decreases |xs|
  {
    if xs != [] {
      if xs[0].role == RoleUser {
        assert ClaudeStep([], xs[0]) == [xs[0]];
        ClaudeNormalizeFromRunEnds([xs[0]], xs[1..]);
        assert [xs[0]] + xs[1..] == xs;
      } else {
        assert ClaudeStep([], xs[0]) == [];
        ClaudeNormalizeIsRunEnds(xs[1..]);
      }
    }
  }

  // Gemini

  /** The role-mapped history Gemini would be given. */
  function GeminiCandidates(hs: Histories, user: string): (r: seq<GeminiContent>)
    ensures |r| == |HistoryOf(hs, user)|
    ensures forall i :: 0 <= i < |r| ==> r[i] == GeminiContent(GeminiRole(HistoryOf(hs, user)[i].role), HistoryOf(hs, user)[i].content)
  {
    var h := HistoryOf(hs, user);
    seq(|h|, i requires 0 <= i < |h| => GeminiContent(GeminiRole(h[i].role), h[i].content))
  }

  /** The number of entries whose role is not `model`. */
  function NonModelCount(cs: seq<GeminiContent>): (n: nat)
    ensures n <= |cs|
  {
    if cs == [] then 0 else (if cs[0].role != RoleModel then 1 else 0) + NonModelCount(cs[1..])
  }

  /** `GetGeminiChatSessionCtx`: the mapped history when the count check passes, else nothing. */
  function GetGeminiChatSessionCtx(hs: Histories, user: string): (r: seq<GeminiContent>)
    ensures r == GeminiCandidates(hs, user) || r == []
    ensures NonModelCount(GeminiCandidates(hs, user)) == |GeminiCandidates(hs, user)| / 2 ==> r == GeminiCandidates(hs, user)
    ensures NonModelCount(GeminiCandidates(hs, user)) != |GeminiCandidates(hs, user)| / 2 ==> r == []
  {
    var cs := GeminiCandidates(hs, user);
    if NonModelCount(cs) != |cs| / 2 then [] else cs
  }

  /** The stored history alternates `user` and `ai`, starting with `user`. */
  predicate Alternates(h: seq<ChatMessage>) {
    forall i :: 0 <= i < |h| ==> h[i].role == if i % 2 == 0 then RoleUser else RoleAI
  }

  /** A strictly alternating mapped history of even length holds as many `user` entries as `model` ones. */
  lemma {:induction false} NonModelCountAlternating(cs: seq<GeminiContent>)
    requires |cs| % 2 == 0
    requires forall i :: 0 <= i < |cs| ==> cs[i].role == if i % 2 == 0 then RoleUser else RoleModel
    ensures NonModelCount(cs) == |cs| / 2
    decreases |cs|
  {
    if cs != [] {
      assert cs[0].role == RoleUser && cs[1].role == RoleModel;
      assert cs[1..][1..] == cs[2..];
      forall i | 0 <= i < |cs[2..]|
        ensures cs[2..][i].role == if i % 2 == 0 then RoleUser else RoleModel
      {
        assert cs[2..][i] == cs[i + 2];
      }
      NonModelCountAlternating(cs[2..]);
    }
  }

  /**
   * Every history that alternates `user` and `ai` in complete pairs passes
   * the count check: Gemini is given all of it, as `user`/`model` pairs.
   */
  lemma GeminiAcceptsAlternating(hs: Histories, user: string)
    requires Alternates(HistoryOf(hs, user)) && |HistoryOf(hs, user)| % 2 == 0
    ensures var r := GetGeminiChatSessionCtx(hs, user);
      && r == GeminiCandidates(hs, user)
      && forall i :: 0 <= i < |r| ==> r[i].role == if i % 2 == 0 then RoleUser else RoleModel
  {
    NonModelCountAlternating(GeminiCandidates(hs, user));
  }

  /** Three user entries and one model entry are rejected: the call proceeds with no history. */
  lemma GeminiRejectsThreeUsersOneModel(hs: Histories, user: string)
    requires |HistoryOf(hs, user)| == 4
    requires HistoryOf(hs, user)[0].role == RoleUser && HistoryOf(hs, user)[1].role == RoleUser
    requires HistoryOf(hs, user)[2].role == RoleUser && HistoryOf(hs, user)[3].role == RoleAI
    ensures GetGeminiChatSessionCtx(hs, user) == []
  {
    var cs := GeminiCandidates(hs, user);
    assert cs[0].role == RoleUser && cs[1].role == RoleUser && cs[2].role == RoleUser && cs[3].role == RoleModel;
    assert NonModelCount(cs[3..]) == 0 by { assert cs[3..][1..] == []; }
    assert NonModelCount(cs[2..]) == 1 by { assert cs[2..][1..] == cs[3..]; }
    assert NonModelCount(cs[1..]) == 2 by { assert cs[1..][1..] == cs[2..]; }
    assert NonModelCount(cs) == 3;
  }

  /** The check counts roles; it does not check alternation: model, user, user, model passes. */
  lemma GeminiAcceptsNonAlternating(hs: Histories, user: string)
    requires |HistoryOf(hs, user)| == 4
    requires HistoryOf(hs, user)[0].role == RoleAI && HistoryOf(hs, user)[1].role == RoleUser
    requires HistoryOf(hs, user)[2].role == RoleUser && HistoryOf(hs, user)[3].role == RoleAI
    ensures GetGeminiChatSessionCtx(hs, user) == GeminiCandidates(hs, user)
    ensures GetGeminiChatSessionCtx(hs, user)[1].role == GetGeminiChatSessionCtx(hs, user)[2].role
  {
    var cs := GeminiCandidates(hs, user);
    assert cs[0].role == RoleModel && cs[1].role == RoleUser && cs[2].role == RoleUser && cs[3].role == RoleModel;
    assert NonModelCount(cs[3..]) == 0 by { assert cs[3..][1..] == []; }
    assert NonModelCount(cs[2..]) == 1 by { assert cs[2..][1..] == cs[3..]; }
    assert NonModelCount(cs[1..]) == 2 by { assert cs[1..][1..] == cs[2..]; }
    assert NonModelCount(cs) == 2;
  }
}

=== FILE: chatbot.dfy ===
/**
 * The multi-provider chatbot: `GetResponse` routes one user input through
 * the "继续" (continue) command, the single-flight check, and exactly one
 * configured provider; background goroutines fill the user's response slot
 * and a waiter pushes whatever arrives.
 *
 * The request is modelled up to the point where it returns. What then
 * happens concurrently is a set of separate steps applied to the returned
 * state: the stream goroutine (`DeliverStream`), the Claude and Gemini
 * goroutines (`CompleteProvider`), and the waiter (`WaiterStep`). The
 * provider calls themselves are inputs: the HTTP exchange for OpenAI, a
 * completion for Claude, the reply object for Gemini. The waiter's timer is
 * the time from its start until the channel became ready.
 */
module Chatbot {
  import opened Wrappers
  import opened Mailbox
  import OpenAIMessage
  import StreamReader
  import OpenAIClient
  import opened ChatSession
  import opened ResponseCache

  /** Slot lifetime and waiter timeout, in seconds. */
  const MaxChatResponseCacheTimeout := 120

  const StillGenerating := "后台数据生成中，请稍后，生成完成会进行推送~"
  const AlreadyInFlight := "有提问在后台数据生成中，请稍后，生成完成会进行推送~"
  const NoAISupport := "no ai support"
  const ClaudePending := "Claude生成中..."
  const GeminiPending := "Gemini生成中..."

  const CandidatesEmpty := "response candidates empty"
  const ContentInvalid := "response content invalid"
  const PartsEmpty := "response parts empty"
  const PartsNotText := "response parts not text"

  /** Which provider clients were created at start-up. */
  datatype Providers = Providers(openai: bool, gemini: bool, claude: bool)

  datatype Bot = Bot(providers: Providers, cache: Cache, histories: Histories)

  /** The provider `GetResponse` uses: the first configured one in the order OpenAI, Gemini, Claude. */
  function ChosenAI(p: Providers): Option<string> {
    if p.openai then Some(AINameOpenAI)
    else if p.gemini then Some(AINameGemini)
    else if p.claude then Some(AINameClaude)
    else None
  }

  /** The request handed to a provider. */
  datatype Call =
    | NoCall
    | OpenAICall(messages: seq<OpenAIMessage.ChatMessage>)
    | GeminiCall(history: seq<GeminiContent>, input: string)
    | ClaudeCall(claudeMessages: seq<ClaudeMessage>)

  /**
   * What `GetResponse` returns, with the state after it and what it left
   * running: the slot a waiter watches and, for an OpenAI event stream, the
   * reader the stream goroutine drains. `Blocked`: the call waits forever
   * on a mutex that was never released.
   */
  datatype Reply =
    | Reply(bot: Bot, text: string, err: Option<OpenAIClient.PostError>, call: Call,
            waiter: Option<nat>, stream: Option<StreamReader.Stream>)
    | Blocked

  datatype Waiting = Waiting(bot: Bot, waiter: Option<nat>)

  /**
   * `WaitChatResponse`: with a slot, starts a waiter on it. Without one the
   * function returns while still holding `rspCacheMu`.
   */
  function WaitChatResponse(b: Bot, user: string): (r: Waiting)
    requires Valid(b.cache)
    ensures user in b.cache.slots ==> r == Waiting(b, Some(b.cache.slots[user]))
    ensures user !in b.cache.slots ==> r.waiter.None? && r.bot.cache.locked
    ensures r.bot.cache.slots == b.cache.slots && r.bot.cache.heap == b.cache.heap && r.bot.histories == b.histories
  {
    if user in b.cache.slots then Waiting(b, Some(b.cache.slots[user]))
    else Waiting(b.(cache := Leak(b.cache)), None)
  }

  /** Records the provider name on `user`'s slot. */
  function Tag(b: Bot, user: string, ai: string): (r: Bot)
    requires Valid(b.cache) && user in b.cache.slots
    ensures Valid(r.cache) && r.cache.slots == b.cache.slots && SlotOf(r.cache, user) == SlotOf(b.cache, user).(ai := ai)
    ensures r.histories == b.histories && r.providers == b.providers && r.cache.locked == b.cache.locked
  {
    var id := b.cache.slots[user];
    b.(cache := SetSlot(b.cache, id, b.cache.heap[id].(ai := ai)))
  }

  /** `OpenAIRequest`: store the input, send the whole history, and on success start the waiter. */
  function OpenAIRequest(b: Bot, user: string, input: string, now: int,
                         exchange: Result<OpenAIClient.HttpResponse, string>,
                         decodeBody: OpenAIClient.BodyDecoder): (r: Reply)
    requires Valid(b.cache) && user in b.cache.slots && !b.cache.locked
    ensures r.Reply? && Valid(r.bot.cache) && !r.bot.cache.locked && r.bot.providers == b.providers
    ensures r.bot.histories == AddChatSessionCtx(b.histories, user, input, RoleUser, AINameOpenAI, now)
    ensures r.call == OpenAICall(GetChatSessionCtx(r.bot.histories, user, []))
    ensures var p := OpenAIClient.Post(OpenAIClient.ChatCompletionPath, exchange, decodeBody);
      && (p.Err? ==>
            && r.err == Some(p.error) && r.text == "" && r.waiter.None? && r.stream.None?
            && user !in r.bot.cache.slots && SlotsAgreeExcept(b.cache.slots, r.bot.cache.slots, user)
            && r.bot.cache.heap == b.cache.heap)
      && (p.Ok? ==>
            && r.err.None? && r.bot.cache == b.cache && r.waiter == Some(b.cache.slots[user])
            && r.text == OpenAIMessage.GetContent(p.value.rsp) && r.stream == p.value.task)
  {
    var b2 := b.(histories := AddChatSessionCtx(b.histories, user, input, RoleUser, AINameOpenAI, now));
    var messages := GetChatSessionCtx(b2.histories, user, []);
    match OpenAIClient.Post(OpenAIClient.ChatCompletionPath, exchange, decodeBody)
    case Err(e) =>
      Reply(b2.(cache := ClearChatCache(b2.cache, user)), "", Some(e), OpenAICall(messages), None, None)
    case Ok(posted) =>
      var w := WaitChatResponse(b2, user);
      Reply(w.bot, OpenAIMessage.GetContent(posted.rsp), None, OpenAICall(messages), w.waiter, posted.task)
  }

  /** `ClaudeRequest`: store the input, send the normalised history, start the waiter. */
  function ClaudeRequest(b: Bot, user: string, input: string, now: int): (r: Reply)
    requires Valid(b.cache) && user in b.cache.slots && !b.cache.locked
    ensures r.Reply? && r.bot.cache == b.cache && r.bot.providers == b.providers
    ensures r.bot.histories == AddChatSessionCtx(b.histories, user, input, RoleUser, AINameClaude, now)
    ensures r.call == ClaudeCall(GetClaudeChatSessionCtx(r.bot.histories, user, []))
    ensures r.text == ClaudePending && r.err.None? && r.waiter == Some(b.cache.slots[user]) && r.stream.None?
  {
    var b2 := b.(histories := AddChatSessionCtx(b.histories, user, input, RoleUser, AINameClaude, now));
    var w := WaitChatResponse(b2, user);
    Reply(w.bot, ClaudePending, None, ClaudeCall(GetClaudeChatSessionCtx(b2.histories, user, [])), w.waiter, None)
  }

  /** `GeminiRequest`: the history is taken before the input is stored. */
  function GeminiRequest(b: Bot, user: string, input: string, now: int): (r: Reply)
    requires Valid(b.cache) && user in b.cache.slots && !b.cache.locked
    ensures r.Reply? && r.bot.cache == b.cache && r.bot.providers == b.providers
    ensures r.bot.histories == AddChatSessionCtx(b.histories, user, input, RoleUser, AINameGemini, now)
    ensures r.call == GeminiCall(GetGeminiChatSessionCtx(b.histories, user), input)
    ensures r.text == GeminiPending && r.err.None? && r.waiter == Some(b.cache.slots[user]) && r.stream.None?
  {
    var history := GetGeminiChatSessionCtx(b.histories, user);
    var b2 := b.(histories := AddChatSessionCtx(b.histories, user, input, RoleUser, AINameGemini, now));
    var w := WaitChatResponse(b2, user);
    Reply(w.bot, GeminiPending, None, GeminiCall(history, input), w.waiter, None)
  }

  /** The freshly built, tagged state a provider request starts from. */
  function Prepared(b: Bot, user: string, now: int, ai: string): (r: Bot)
    requires Valid(b.cache)
    ensures Valid(r.cache) && user in r.cache.slots && !r.cache.locked == !b.cache.locked
  {
    Tag(b.(cache := BuildChatCache(IsProcessing(b.cache, user, now, MaxChatResponseCacheTimeout).cache, user, now)), user, ai)
  }

  /** `GetResponse`. */
  function GetResponse(b: Bot, user: string, input: string, now: int,
                       exchange: Result<OpenAIClient.HttpResponse, string>,
                       decodeBody: OpenAIClient.BodyDecoder): (r: Reply)
    requires Valid(b.cache)
    ensures r == Blocked <==> b.cache.locked
    ensures r.Reply? ==> Valid(r.bot.cache) && !r.bot.cache.locked && r.bot.providers == b.providers
    ensures r.Reply? && r.waiter.Some? ==> r.waiter.value in r.bot.cache.heap
  {
    if b.cache.locked then Blocked
    else if IsContinue(input) then
      var content := PreHitProcess(b.cache, user);
      if content != "" then Reply(b.(cache := ClearChatCache(b.cache, user)), content, None, NoCall, None, None)
      else Reply(b, StillGenerating, None, NoCall, None, None)
    else
      var checked := IsProcessing(b.cache, user, now, MaxChatResponseCacheTimeout);
      if checked.processing then Reply(b.(cache := checked.cache), AlreadyInFlight, None, NoCall, None, None)
      else
        if b.providers.openai then OpenAIRequest(Prepared(b, user, now, AINameOpenAI), user, input, now, exchange, decodeBody)
        else if b.providers.gemini then GeminiRequest(Prepared(b, user, now, AINameGemini), user, input, now)
        else if b.providers.claude then ClaudeRequest(Prepared(b, user, now, AINameClaude), user, input, now)
        else Reply(b.(cache := BuildChatCache(checked.cache, user, now)), NoAISupport, None, NoCall, None, None)
  }

  // ----- what runs after GetResponse returned -----

  /** How a Claude or Gemini goroutine ends: with reply text, or with an error text. */
  datatype Completion = Replied(text: string) | Failed(err: string)

  /** The state after a goroutine ended, and whether it ended normally (no panic, no block). */
  datatype Completed = Completed(bot: Bot, ok: bool)

  /**
   * A provider goroutine finishing: a reply is sent into the slot's channel;
   * a failure stores its text as the slot content and closes the channel.
   */
  function CompleteProvider(b: Bot, id: nat, c: Completion): (r: Completed)
    requires Valid(b.cache) && id in b.cache.heap
    ensures Valid(r.bot.cache) && r.bot.cache.slots == b.cache.slots && r.bot.histories == b.histories
    ensures r.ok <==> (if c.Replied? then b.cache.heap[id].mailbox == Empty else b.cache.heap[id].mailbox != Closed)
    ensures id in r.bot.cache.heap
    ensures c.Replied? && r.ok ==> r.bot.cache.heap[id] == b.cache.heap[id].(mailbox := Holding(c.text))
    ensures c.Failed? && b.cache.heap[id].mailbox == Empty ==> r.bot.cache.heap[id] == b.cache.heap[id].(content := c.err, mailbox := Closed)
  {
    var s := b.cache.heap[id];
    match c
    case Replied(t) =>
      var (m, o) := BlockingPut(s.mailbox, t);
      Completed(b.(cache := SetSlot(b.cache, id, s.(mailbox := m))), o == Put)
    case Failed(e) =>
      var (m, ok) := Close(s.mailbox);
      Completed(b.(cache := SetSlot(b.cache, id, s.(content := e, mailbox := m))), ok)
  }

  /** The parts of a Gemini reply the goroutine inspects. */
  datatype GeminiPart = TextPart(text: string) | OtherPart
  datatype GeminiCandidate = GeminiCandidate(content: Option<seq<GeminiPart>>)
  datatype GeminiReply = SendFailed(err: string) | Candidates(candidates: seq<GeminiCandidate>)

  /** The reply has a first candidate with content whose first part is text. */
  predicate GeminiUsable(g: GeminiReply) {
    && g.Candidates?
    && |g.candidates| > 0
    && g.candidates[0].content.Some?
    && |g.candidates[0].content.value| > 0
    && g.candidates[0].content.value[0].TextPart?
  }

  /** How the Gemini goroutine ends for a given reply. */
  function GeminiCompletion(g: GeminiReply): (c: Completion)
    ensures c.Replied? <==> GeminiUsable(g)
    ensures c.Replied? ==> c.text == g.candidates[0].content.value[0].text
    ensures g.SendFailed? ==> c == Failed(g.err)
    ensures g.Candidates? && c.Failed? ==> c.err in {CandidatesEmpty, ContentInvalid, PartsEmpty, PartsNotText}
  {
    match g
    case SendFailed(e) => Failed(e)
    case Candidates(cands) =>
      if |cands| == 0 then Failed(CandidatesEmpty)
      else if cands[0].content.None? then Failed(ContentInvalid)
      else if |cands[0].content.value| == 0 then Failed(PartsEmpty)
      else match cands[0].content.value[0]
        case OtherPart => Failed(PartsNotText)
        case TextPart(t) => Replied(t)
  }

  datatype WaiterExit = TimedOut | Published | PublishFailed | StuckOnLock

  /** The state after the waiter ran, the text it pushed, and how it ended. */
  datatype Waited = Waited(bot: Bot, pushed: Option<string>, exit: WaiterExit)

  /**
   * The waiter of slot `id`. When the channel yields something within the
   * timeout (`elapsed` seconds after the waiter started), non-empty text is
   * stored as an `ai` message and cached on the slot, while `""` (a closed
   * channel) falls back to the cached text; the result is pushed, and a
   * successful push unmaps whatever slot `user` has at that moment.
   */
  function WaiterStep(b: Bot, user: string, id: nat, elapsed: int, publishOk: bool, now: int): (r: Waited)
    requires Valid(b.cache) && id in b.cache.heap
    ensures Valid(r.bot.cache) && r.bot.cache.locked == b.cache.locked && r.bot.providers == b.providers
    ensures id in r.bot.cache.heap
    ensures r.exit == TimedOut <==> !ReceivesBefore(b.cache.heap[id].mailbox, elapsed, MaxChatResponseCacheTimeout)
    ensures r.exit == TimedOut ==> r == Waited(b, None, TimedOut)
    ensures elapsed < MaxChatResponseCacheTimeout && b.cache.heap[id].mailbox.Holding? && b.cache.heap[id].mailbox.value != "" ==>
      && r.pushed == Some(b.cache.heap[id].mailbox.value)
      && r.bot.cache.heap[id].content == b.cache.heap[id].mailbox.value
      && r.bot.histories == AddChatSessionCtx(b.histories, user, b.cache.heap[id].mailbox.value, RoleAI, b.cache.heap[id].ai, now)
    ensures elapsed < MaxChatResponseCacheTimeout && b.cache.heap[id].mailbox in {Closed, Holding("")} ==>
      r.pushed == Some(b.cache.heap[id].content) && r.bot.histories == b.histories
    ensures r.exit == Published <==> r.exit != TimedOut && publishOk && !b.cache.locked
    ensures r.exit == Published ==> user !in r.bot.cache.slots && SlotsAgreeExcept(b.cache.slots, r.bot.cache.slots, user)
    ensures r.exit != Published ==> r.bot.cache.slots == b.cache.slots
  {
    var s := b.cache.heap[id];
    match TryReceive(s.mailbox)
    case None => Waited(b, None, TimedOut)
    case Some(got) =>
      if elapsed >= MaxChatResponseCacheTimeout then Waited(b, None, TimedOut)
      else
        var b1 :=
          if got.value == "" then b.(cache := SetSlot(b.cache, id, s.(mailbox := got.rest)))
          else b.(cache := SetSlot(b.cache, id, s.(mailbox := got.rest, content := got.value)),
                  histories := AddChatSessionCtx(b.histories, user, got.value, RoleAI, s.ai, now));
        var content := if got.value == "" then s.content else got.value;
        if !publishOk then Waited(b1, Some(content), PublishFailed)
        else if b1.cache.locked then Waited(b1, Some(content), StuckOnLock)
        else Waited(b1.(cache := ClearChatCache(b1.cache, user)), Some(content), Published)
  }

  // ----- properties of a request -----

  /** `user` has a slot that is at most the slot lifetime old. */
  predicate InFlight(b: Bot, user: string, now: int)
    requires Valid(b.cache)
  {
    user in b.cache.slots && now <= SlotOf(b.cache, user).begin + MaxChatResponseCacheTimeout
  }

  /**
   * "继续" returns the cached text and unmaps the slot when there is cached
   * text, and otherwise the still-generating notice with nothing changed;
   * it never calls a provider.
   */
  lemma ContinueCommandSemantics(b: Bot, user: string, input: string, now: int,
                                 exchange: Result<OpenAIClient.HttpResponse, string>,
                                 decodeBody: OpenAIClient.BodyDecoder)
    requires Valid(b.cache) && !b.cache.locked && IsContinue(input)
    ensures var r := GetResponse(b, user, input, now, exchange, decodeBody);
      && r.call == NoCall && r.waiter.None? && r.err.None?
      && (user in b.cache.slots && SlotOf(b.cache, user).content != "" ==>
            && r.text == SlotOf(b.cache, user).content
            && user !in r.bot.cache.slots
            && SlotsAgreeExcept(b.cache.slots, r.bot.cache.slots, user)
            && r.bot.histories == b.histories)
      && (user !in b.cache.slots || SlotOf(b.cache, user).content == "" ==>
            r.text == StillGenerating && r.bot == b)
  {
  }

  /** Single flight: while a fresh slot exists every other input is answered with the busy notice and changes nothing. */
  lemma SingleFlight(b: Bot, user: string, input: string, now: int,
                     exchange: Result<OpenAIClient.HttpResponse, string>,
                     decodeBody: OpenAIClient.BodyDecoder)
    requires Valid(b.cache) && !b.cache.locked && !IsContinue(input) && InFlight(b, user, now)
    ensures GetResponse(b, user, input, now, exchange, decodeBody) == Reply(b, AlreadyInFlight, None, NoCall, None, None)
  {
  }

  /**
   * Otherwise exactly the first configured provider is called, the input is
   * stored once as a `user` message tagged with that provider, and the
   * user's slot is tagged with it too. With no provider the reply is "no ai
   * support", nothing is stored, and the new slot stays behind.
   */
  lemma ProviderRouting(b: Bot, user: string, input: string, now: int,
                        exchange: Result<OpenAIClient.HttpResponse, string>,
                        decodeBody: OpenAIClient.BodyDecoder)
    requires Valid(b.cache) && !b.cache.locked && !IsContinue(input) && !InFlight(b, user, now)
    ensures var r := GetResponse(b, user, input, now, exchange, decodeBody);
      && (r.call.OpenAICall? <==> b.providers.openai)
      && (r.call.GeminiCall? <==> !b.providers.openai && b.providers.gemini)
      && (r.call.ClaudeCall? <==> !b.providers.openai && !b.providers.gemini && b.providers.claude)
      && (ChosenAI(b.providers).Some? ==>
            r.bot.histories == AddChatSessionCtx(b.histories, user, input, RoleUser, ChosenAI(b.providers).value, now))
      && (ChosenAI(b.providers).None? ==>
            r.call == NoCall && r.text == NoAISupport && r.bot.histories == b.histories && user in r.bot.cache.slots)
  {
  }

  /** OpenAI is sent the whole history, ending with the input as a `user` message. */
  lemma OpenAIContext(b: Bot, user: string, input: string, now: int,
                        exchange: Result<OpenAIClient.HttpResponse, string>,
                        decodeBody: OpenAIClient.BodyDecoder)
    requires Valid(b.cache) && !b.cache.locked && !IsContinue(input) && !InFlight(b, user, now)
    requires b.providers.openai
    ensures var r := GetResponse(b, user, input, now, exchange, decodeBody);
      && r.call.OpenAICall?
      && r.call.messages[|r.call.messages| - 1] == OpenAIMessage.ChatMessage(RoleUser, input)
  {
    assert GetResponse(b, user, input, now, exchange, decodeBody)
        == OpenAIRequest(Prepared(b, user, now, AINameOpenAI), user, input, now, exchange, decodeBody);
    InMemoryHistoryIgnoresProvider(b.histories, user, input, RoleUser, AINameOpenAI, now, []);
  }

  /** Gemini is given the history as it was before the input; the input is sent separately. */
  lemma GeminiContext(b: Bot, user: string, input: string, now: int,
                        exchange: Result<OpenAIClient.HttpResponse, string>,
                        decodeBody: OpenAIClient.BodyDecoder)
    requires Valid(b.cache) && !b.cache.locked && !IsContinue(input) && !InFlight(b, user, now)
    requires !b.providers.openai && b.providers.gemini
    ensures GetResponse(b, user, input, now, exchange, decodeBody).call
         == GeminiCall(GetGeminiChatSessionCtx(b.histories, user), input)
  {
    assert GetResponse(b, user, input, now, exchange, decodeBody)
        == GeminiRequest(Prepared(b, user, now, AINameGemini), user, input, now);
  }

  /** Claude is sent a normalised history whose last message is the input. */
  lemma ClaudeContext(b: Bot, user: string, input: string, now: int,
                        exchange: Result<OpenAIClient.HttpResponse, string>,
                        decodeBody: OpenAIClient.BodyDecoder)
    requires Valid(b.cache) && !b.cache.locked && !IsContinue(input) && !InFlight(b, user, now)
    requires !b.providers.openai && !b.providers.gemini && b.providers.claude
    ensures var r := GetResponse(b, user, input, now, exchange, decodeBody);
      && r.call.ClaudeCall?
      && r.call.claudeMessages != []
      && r.call.claudeMessages[|r.call.claudeMessages| - 1] == ClaudeMessage(RoleUser, input)
  {
    assert GetResponse(b, user, input, now, exchange, decodeBody)
        == ClaudeRequest(Prepared(b, user, now, AINameClaude), user, input, now);
    ClaudeContextEndsWithInput(b.histories, user, input, AINameClaude, now, []);
  }

  /** A successful provider call leaves a waiter on a fresh slot: no cached text, an empty channel. */
  lemma CallWaitsOnFreshSlot(b: Bot, user: string, input: string, now: int,
                             exchange: Result<OpenAIClient.HttpResponse, string>,
                             decodeBody: OpenAIClient.BodyDecoder)
    requires Valid(b.cache) && !b.cache.locked && !IsContinue(input) && !InFlight(b, user, now)
    requires ChosenAI(b.providers).Some?
    ensures var r := GetResponse(b, user, input, now, exchange, decodeBody);
      r.err.None? ==>
        && r.waiter == Some(r.bot.cache.slots[user])
        && SlotOf(r.bot.cache, user) == Slot("", now, ChosenAI(b.providers).value, Empty)
        && r.waiter.value !in b.cache.heap
  {
  }

  /** A failed OpenAI `Post` returns its error with empty text and unmaps the slot. */
  lemma PostFailureClearsSlot(b: Bot, user: string, input: string, now: int,
                              exchange: Result<OpenAIClient.HttpResponse, string>,
                              decodeBody: OpenAIClient.BodyDecoder)
    requires Valid(b.cache) && !b.cache.locked && !IsContinue(input) && !InFlight(b, user, now)
    requires b.providers.openai
    requires OpenAIClient.Post(OpenAIClient.ChatCompletionPath, exchange, decodeBody).Err?
    ensures var r := GetResponse(b, user, input, now, exchange, decodeBody);
      && r.err == Some(OpenAIClient.Post(OpenAIClient.ChatCompletionPath, exchange, decodeBody).error)
      && r.text == "" && r.waiter.None? && user !in r.bot.cache.slots
  {
  }

  /**
   * Once `WaitChatResponse` finds no slot the lock is never released: every
   * later request, for any user, blocks.
   */
  lemma LeakedLockBlocksEveryRequest(b: Bot, user: string, other: string, input: string, now: int,
                                     exchange: Result<OpenAIClient.HttpResponse, string>,
                                     decodeBody: OpenAIClient.BodyDecoder)
    requires Valid(b.cache) && user !in b.cache.slots
    ensures GetResponse(WaitChatResponse(b, user).bot, other, input, now, exchange, decodeBody) == Blocked
  {
  }

  /**
   * A waiter whose push succeeds unmaps the user's current slot even when
   * that is a newer slot than the one it watched.
   */
  lemma WaiterClearsNewerSlot(b: Bot, user: string, id: nat, now: int)
    requires Valid(b.cache) && id in b.cache.heap && !b.cache.locked
    requires user in b.cache.slots && b.cache.slots[user] != id
    requires b.cache.heap[id].mailbox != Empty
    ensures user !in WaiterStep(b, user, id, 0, true, now).bot.cache.slots
  {
  }

  /** Histories stay within six entries across a request. */
  lemma RequestKeepsHistoriesBounded(b: Bot, user: string, input: string, now: int,
                                     exchange: Result<OpenAIClient.HttpResponse, string>,
                                     decodeBody: OpenAIClient.BodyDecoder)
    requires Valid(b.cache) && Bounded(b.histories)
    ensures var r := GetResponse(b, user, input, now, exchange, decodeBody);
      r.Reply? ==> Bounded(r.bot.histories)
  {
    if !b.cache.locked && !IsContinue(input) && !InFlight(b, user, now) && ChosenAI(b.providers).Some? {
      ProviderRouting(b, user, input, now, exchange, decodeBody);
      AddKeepsBounded(b.histories, user, input, RoleUser, ChosenAI(b.providers).value, now);
    }
  }

  /** And across a waiter run. */
  lemma WaiterKeepsHistoriesBounded(b: Bot, user: string, id: nat, elapsed: int, publishOk: bool, now: int)
    requires Valid(b.cache) && Bounded(b.histories) && id in b.cache.heap
    ensures Bounded(WaiterStep(b, user, id, elapsed, publishOk, now).bot.histories)
  {
    if b.cache.heap[id].mailbox.Holding? {
      AddKeepsBounded(b.histories, user, b.cache.heap[id].mailbox.value, RoleAI, b.cache.heap[id].ai, now);
    }
  }

  // ----- end to end -----

  /**
   * A provider failure reaches the user as its error text through the
   * closed channel; nothing is stored in the history.
   */
  lemma FailureIsPushed(b: Bot, user: string, id: nat, err: string, now: int)
    requires Valid(b.cache) && !b.cache.locked && id in b.cache.heap && b.cache.heap[id].mailbox == Empty
    ensures var done := CompleteProvider(b, id, Failed(err));
      var w := WaiterStep(done.bot, user, id, 0, true, now);
      done.ok && w.pushed == Some(err) && w.exit == Published && w.bot.histories == b.histories
  {
  }

  /** A reply whose push failed stays cached: a later "继续" returns it and unmaps the slot. */
  lemma ContinueAfterFailedPush(b: Bot, user: string, text: string, now: int, later: int, input: string,
                                exchange: Result<OpenAIClient.HttpResponse, string>,
                                decodeBody: OpenAIClient.BodyDecoder)
    requires Valid(b.cache) && !b.cache.locked && user in b.cache.slots
    requires SlotOf(b.cache, user).mailbox == Empty && text != "" && IsContinue(input)
    ensures var id := b.cache.slots[user];
      var done := CompleteProvider(b, id, Replied(text));
      var w := WaiterStep(done.bot, user, id, 0, false, now);
      var r := GetResponse(w.bot, user, input, later, exchange, decodeBody);
      r.Reply? && r.text == text && user !in r.bot.cache.slots
  {
    var id := b.cache.slots[user];
    var done := CompleteProvider(b, id, Replied(text));
    var w := WaiterStep(done.bot, user, id, 0, false, now);
    assert SlotOf(w.bot.cache, user).content == text;
  }

  /** An OpenAI exchange whose body is a well-formed event stream of `ps` ending in `[DONE]`. */
  predicate StreamExchange(exchange: Result<OpenAIClient.HttpResponse, string>, ps: seq<string>, decode: StreamReader.Decoder) {
    && exchange.Ok?
    && exchange.value.status == OpenAIClient.StatusOK
    && exchange.value.contentType == OpenAIClient.EventStreamType
    && exchange.value.lines.lines == OpenAIClient.FrameLines(ps) + [OpenAIClient.FrameLine(StreamReader.Done)]
    && (forall i :: 0 <= i < |ps| ==> OpenAIClient.GoodPayload(ps[i], decode))
  }

  /**
   * A streamed OpenAI answer end to end: the request returns the
   * placeholder, the stream goroutine fills the slot with the frames'
   * text, and the waiter pushes exactly that text, stores it as the reply
   * and unmaps the slot.
   */
  lemma StreamedAnswerIsPushed(b: Bot, user: string, input: string, now: int,
                               exchange: Result<OpenAIClient.HttpResponse, string>,
                               decodeBody: OpenAIClient.BodyDecoder, ps: seq<string>,
                               decode: StreamReader.Decoder, clock: seq<int>, later: int)
    requires Valid(b.cache) && !b.cache.locked && !IsContinue(input) && !InFlight(b, user, now)
    requires b.providers.openai && StreamExchange(exchange, ps, decode)
    requires OpenAIClient.CapWithin(clock, now) && |ps| < |clock|
    requires forall i :: 0 <= i < |ps| ==> clock[i] - now < OpenAIClient.MaxStreamWaitTimeSecs
    requires OpenAIClient.FramesText(ps, decode) != "" && now <= later < now + MaxChatResponseCacheTimeout
    ensures var r := GetResponse(b, user, input, now, exchange, decodeBody);
      && r.Reply? && r.text == OpenAIClient.StreamPlaceholder && r.waiter.Some? && r.stream.Some?
      && var b2 := r.bot.(cache := DeliverStream(r.bot.cache, r.waiter.value, r.stream.value, decode, clock, now));
         var w := WaiterStep(b2, user, r.waiter.value, later - now, true, later);
         && w.pushed == Some(OpenAIClient.FramesText(ps, decode))
         && w.exit == Published
         && user !in w.bot.cache.slots
         && w.bot.histories == AddChatSessionCtx(r.bot.histories, user, OpenAIClient.FramesText(ps, decode), RoleAI, AINameOpenAI, later)
  {
    var r := GetResponse(b, user, input, now, exchange, decodeBody);
    var posted := OpenAIClient.Post(OpenAIClient.ChatCompletionPath, exchange, decodeBody);
    assert posted.Ok? && posted.value.task == Some(StreamReader.Stream(false, exchange.value.lines, []));
    CallWaitsOnFreshSlot(b, user, input, now, exchange, decodeBody);
    var id := r.waiter.value;
    var task := r.stream.value;
    OpenAIClient.RunStreamDeliversFrames(task, decode, ps, clock, now);
    var b2 := r.bot.(cache := DeliverStream(r.bot.cache, id, task, decode, clock, now));
    assert b2.cache.heap[id] == SlotOf(r.bot.cache, user).(mailbox := Holding(OpenAIClient.FramesText(ps, decode)));
  }

  /**
   * A plain JSON answer is returned directly, but nothing ever feeds the
   * slot's channel: its waiter times out and the user stays in flight, so
   * the next question within the slot lifetime gets the busy notice.
   */
  lemma JsonAnswerStrandsSlot(b: Bot, user: string, input: string, now: int,
                              exchange: Result<OpenAIClient.HttpResponse, string>,
                              decodeBody: OpenAIClient.BodyDecoder, later: int, next: string)
    requires Valid(b.cache) && !b.cache.locked && !IsContinue(input) && !InFlight(b, user, now)
    requires b.providers.openai
    requires exchange.Ok? && exchange.value.contentType != OpenAIClient.EventStreamType
    requires OpenAIClient.Post(OpenAIClient.ChatCompletionPath, exchange, decodeBody).Ok?
    requires now <= later <= now + MaxChatResponseCacheTimeout && !IsContinue(next)
    ensures var r := GetResponse(b, user, input, now, exchange, decodeBody);
      && r.stream.None? && r.waiter.Some?
      && WaiterStep(r.bot, user, r.waiter.value, later - now, true, later).exit == TimedOut
      && GetResponse(r.bot, user, next, later, exchange, decodeBody).text == AlreadyInFlight
  {
    CallWaitsOnFreshSlot(b, user, input, now, exchange, decodeBody);
  }
}

=== FILE: legacy_chatbot.dfy ===
/**
 * The older, OpenAI-only orchestrator snapshot. It has the same shape as
 * the multi-provider chatbot with different constants and ordering: a
 * ten-minute slot lifetime and a one-minute waiter, histories of OpenAI
 * messages tagged `user`/`assistant`, the input stored before the slot is
 * built, and a failed `Post` that leaves the slot behind.
 *
 * Its waiter never writes the slot's cached text, so "继续" can never
 * return a reply. `WaiterStepAsWritten` keeps that behaviour for the lemma
 * that shows it; `WaiterStep` also caches the received text, as the
 * "继续" prompts promise.
 */
module LegacyChatbot {
  import opened Wrappers
  import opened Mailbox
  import OpenAIMessage
  import StreamReader
  import OpenAIClient
  import ChatSession
  import opened ResponseCache

  /** Slot lifetime, seconds. */
  const MaxChatResponseCacheTimeout := 600
  /** Waiter timeout, seconds. */
  const WaiterTimeout := 60

  const StillGenerating := "后台数据生成中，请稍后输入: \"继续\", 获取结果"
  const AlreadyInFlight := "有提问在后台数据生成中，请稍后输入: \"继续\", 获取结果"

  type History = map<string, seq<OpenAIMessage.ChatMessage>>

  /** `hasClient`: an OpenAI client was created at start-up. */
  datatype LegacyBot = LegacyBot(hasClient: bool, cache: Cache, histories: History)

  function HistoryOf(hs: History, user: string): seq<OpenAIMessage.ChatMessage> {
    if user in hs then hs[user] else []
  }

  /** The stored form of a message: role `user` for the user's input, `assistant` for a reply. */
  function Tagged(content: string, isUser: bool): OpenAIMessage.ChatMessage {
    OpenAIMessage.ChatMessage(if isUser then ChatSession.RoleUser else ChatSession.RoleAssistant, content)
  }

  /** `AddChatSessionCtx`: the user's history gets the tagged message through the bounded push; nothing else changes. */
  function AddChatSessionCtx(hs: History, user: string, content: string, isUser: bool): (r: History)
    ensures r.Keys == hs.Keys + {user}
    ensures forall u :: u in hs && u != user ==> r[u] == hs[u]
    ensures r[user] == ChatSession.Push(HistoryOf(hs, user), Tagged(content, isUser))
  {
    hs[user := ChatSession.Push(HistoryOf(hs, user), Tagged(content, isUser))]
  }

  /** `GetChatSessionCtx`: the prefix followed by the stored history, in order. */
  function GetChatSessionCtx(hs: History, user: string, prefix: seq<OpenAIMessage.ChatMessage>): (r: seq<OpenAIMessage.ChatMessage>)
    ensures |r| == |prefix| + |HistoryOf(hs, user)|
    ensures r[..|prefix|] == prefix && r[|prefix|..] == HistoryOf(hs, user)
    ensures user !in hs ==> r == prefix
  {
    prefix + HistoryOf(hs, user)
  }

  /**
   * What `GetResponse` returns: the state after it, the text and error,
   * the messages sent to OpenAI, and what it left running. `Panicked`: no
   * client was configured and `Post` dereferences it; the HTTP server
   * recovers the panic, so the state reached before it (`bot`) stays.
   */
  datatype Reply =
    | Reply(bot: LegacyBot, text: string, err: Option<OpenAIClient.PostError>,
            sent: Option<seq<OpenAIMessage.ChatMessage>>, waiter: Option<nat>, stream: Option<StreamReader.Stream>)
    | Panicked(bot: LegacyBot)

  /**
   * The state once a new question is accepted: the input stored as a
   * `user` message, then the slot built (an expired one was already
   * dropped by the in-flight check).
   */
  function Accept(b: LegacyBot, user: string, input: string, now: int): (b1: LegacyBot)
    requires Valid(b.cache)
    ensures Valid(b1.cache) && user in b1.cache.slots && SlotOf(b1.cache, user).begin == now
    ensures b1.histories == AddChatSessionCtx(b.histories, user, input, true)
    ensures b1.hasClient == b.hasClient && b1.cache.locked == b.cache.locked
    ensures SlotsAgreeExcept(b.cache.slots, b1.cache.slots, user)
    ensures forall id :: id in b.cache.heap && id != b1.cache.slots[user] ==> id in b1.cache.heap && b1.cache.heap[id] == b.cache.heap[id]
    ensures b1.cache.slots[user] in b.cache.heap ==> SlotOf(b1.cache, user) == b.cache.heap[b1.cache.slots[user]].(begin := now)
    ensures b1.cache.slots[user] !in b.cache.heap ==> SlotOf(b1.cache, user) == Slot("", now, "", Empty)
  {
    var checked := IsProcessing(b.cache, user, now, MaxChatResponseCacheTimeout);
    b.(cache := BuildChatCache(checked.cache, user, now),
       histories := AddChatSessionCtx(b.histories, user, input, true))
  }

  /**
   * The request to OpenAI with the stored history: a failed `Post` returns
   * its error with an empty text and leaves the slot; a successful one
   * returns the placeholder or the JSON reply text and starts the waiter
   * on the user's slot.
   */
  function Ask(b1: LegacyBot, user: string, exchange: Result<OpenAIClient.HttpResponse, string>,
               decodeBody: OpenAIClient.BodyDecoder): (r: Reply)
    requires Valid(b1.cache) && user in b1.cache.slots
    ensures r.Reply? && r.bot == b1 && r.sent == Some(GetChatSessionCtx(b1.histories, user, []))
    ensures OpenAIClient.Post(OpenAIClient.ChatCompletionPath, exchange, decodeBody).Err? ==>
      r.text == "" && r.err == Some(OpenAIClient.Post(OpenAIClient.ChatCompletionPath, exchange, decodeBody).error)
      && r.waiter == None && r.stream == None
    ensures OpenAIClient.Post(OpenAIClient.ChatCompletionPath, exchange, decodeBody).Ok? ==>
      var posted := OpenAIClient.Post(OpenAIClient.ChatCompletionPath, exchange, decodeBody).value;
      r.text == OpenAIMessage.GetContent(posted.rsp) && r.err == None
      && r.waiter == Some(b1.cache.slots[user]) && r.stream == posted.task
  {
    var messages := GetChatSessionCtx(b1.histories, user, []);
    match OpenAIClient.Post(OpenAIClient.ChatCompletionPath, exchange, decodeBody)
    case Err(e) => Reply(b1, "", Some(e), Some(messages), None, None)
    case Ok(posted) => Reply(b1, OpenAIMessage.GetContent(posted.rsp), None, Some(messages), Some(b1.cache.slots[user]), posted.task)
  }

  /** `GetResponse` of the older snapshot. */
  function GetResponse(b: LegacyBot, user: string, input: string, now: int,
                       exchange: Result<OpenAIClient.HttpResponse, string>,
                       decodeBody: OpenAIClient.BodyDecoder): (r: Reply)
    requires Valid(b.cache)
    ensures r.Panicked? ==> !b.hasClient && r.bot == Accept(b, user, input, now)
    ensures Valid(r.bot.cache) && r.bot.cache.locked == b.cache.locked && r.bot.hasClient == b.hasClient
    ensures r.Reply? && r.waiter.Some? ==> r.waiter.value in r.bot.cache.heap
  {
    if IsContinue(input) then
      var content := PreHitProcess(b.cache, user);
      if content != "" then Reply(b.(cache := ClearChatCache(b.cache, user)), content, None, None, None, None)
      else Reply(b, StillGenerating, None, None, None, None)
    else
      var checked := IsProcessing(b.cache, user, now, MaxChatResponseCacheTimeout);
      if checked.processing then Reply(b.(cache := checked.cache), AlreadyInFlight, None, None, None, None)
      else if !b.hasClient then Panicked(Accept(b, user, input, now))
      else Ask(Accept(b, user, input, now), user, exchange, decodeBody)
  }

  datatype WaiterExit = TimedOut | Published | PublishFailed

  datatype Waited = Waited(bot: LegacyBot, pushed: Option<string>, exit: WaiterExit)

  /**
   * The waiter as written: whatever the channel yields within a minute,
   * empty or not, is stored as an `assistant` message and pushed; a
   * successful push deletes the user's slot. The slot's cached text is
   * never written.
   */
  function WaiterStepAsWritten(b: LegacyBot, user: string, id: nat, elapsed: int, publishOk: bool): (r: Waited)
    requires Valid(b.cache) && id in b.cache.heap
    ensures Valid(r.bot.cache) && id in r.bot.cache.heap && r.bot.cache.locked == b.cache.locked
    ensures r.exit == TimedOut <==> !ReceivesBefore(b.cache.heap[id].mailbox, elapsed, WaiterTimeout)
    ensures r.exit == TimedOut ==> r == Waited(b, None, TimedOut)
    ensures r.bot.cache.heap == b.cache.heap[id := r.bot.cache.heap[id]]
    ensures r.bot.cache.heap[id].content == b.cache.heap[id].content
    ensures r.exit != TimedOut ==>
      && r.pushed == Some(if b.cache.heap[id].mailbox.Holding? then b.cache.heap[id].mailbox.value else "")
      && r.bot.histories == AddChatSessionCtx(b.histories, user, r.pushed.value, false)
    ensures r.exit == Published <==> r.exit != TimedOut && publishOk
    ensures r.exit == Published ==> user !in r.bot.cache.slots
    ensures r.exit != Published ==> r.bot.cache.slots == b.cache.slots
  {
    var s := b.cache.heap[id];
    match TryReceive(s.mailbox)
    case None => Waited(b, None, TimedOut)
    case Some(got) =>
      if elapsed >= WaiterTimeout then Waited(b, None, TimedOut)
      else
        var b1 := b.(cache := SetSlot(b.cache, id, s.(mailbox := got.rest)),
                     histories := AddChatSessionCtx(b.histories, user, got.value, false));
        if publishOk then Waited(b1.(cache := ClearChatCache(b1.cache, user)), Some(got.value), Published)
        else Waited(b1, Some(got.value), PublishFailed)
  }

  /** The waiter with the received text also cached on the slot, so that "继续" can return it. */
  function WaiterStep(b: LegacyBot, user: string, id: nat, elapsed: int, publishOk: bool): (r: Waited)
    requires Valid(b.cache) && id in b.cache.heap
    ensures Valid(r.bot.cache) && id in r.bot.cache.heap && r.bot.cache.locked == b.cache.locked
    ensures r.exit == TimedOut <==> !ReceivesBefore(b.cache.heap[id].mailbox, elapsed, WaiterTimeout)
    ensures r.exit == TimedOut ==> r == Waited(b, None, TimedOut)
    ensures r.exit != TimedOut ==>
      && r.pushed == Some(if b.cache.heap[id].mailbox.Holding? then b.cache.heap[id].mailbox.value else "")
      && r.bot.cache.heap[id].content == r.pushed.value
      && r.bot.histories == AddChatSessionCtx(b.histories, user, r.pushed.value, false)
    ensures r.exit == Published <==> r.exit != TimedOut && publishOk
    ensures r.exit == Published ==> user !in r.bot.cache.slots
    ensures r.exit != Published ==> r.bot.cache.slots == b.cache.slots
  {
    var w := WaiterStepAsWritten(b, user, id, elapsed, publishOk);
    if w.exit == TimedOut then w
    else w.(bot := w.bot.(cache := SetSlot(w.bot.cache, id, w.bot.cache.heap[id].(content := w.pushed.value))))
  }

  // ----- properties -----

  /** No slot holds cached text. */
  ghost predicate NoCachedText(c: Cache) {
    forall id :: id in c.heap ==> c.heap[id].content == ""
  }

  /** Under the as-written waiter no step ever caches text: a request keeps every slot's text empty, */
  lemma RequestKeepsNoCachedText(b: LegacyBot, user: string, input: string, now: int,
                                 exchange: Result<OpenAIClient.HttpResponse, string>,
                                 decodeBody: OpenAIClient.BodyDecoder)
    requires Valid(b.cache) && NoCachedText(b.cache)
    ensures var r := GetResponse(b, user, input, now, exchange, decodeBody);
      NoCachedText(r.bot.cache)
  {
    if !IsContinue(input) && !IsProcessing(b.cache, user, now, MaxChatResponseCacheTimeout).processing {
      var b1 := Accept(b, user, input, now);
      AcceptKeepsNoCachedText(b, user, input, now);
      if b.hasClient {
        assert GetResponse(b, user, input, now, exchange, decodeBody).bot == b1;
      }
    }
  }

  /** Accepting a question caches no text. */
  lemma AcceptKeepsNoCachedText(b: LegacyBot, user: string, input: string, now: int)
    requires Valid(b.cache) && NoCachedText(b.cache)
    ensures NoCachedText(Accept(b, user, input, now).cache)
  {
    var c := IsProcessing(b.cache, user, now, MaxChatResponseCacheTimeout).cache;
    assert NoCachedText(c);
  }

  /** so does the stream goroutine, */
  lemma StreamKeepsNoCachedText(c: Cache, id: nat, task: StreamReader.Stream, decode: StreamReader.Decoder,
                                clock: seq<int>, begin: int)
    requires Valid(c) && NoCachedText(c) && id in c.heap && OpenAIClient.CapWithin(clock, begin)
    ensures NoCachedText(DeliverStream(c, id, task, decode, clock, begin))
  {
  }

  /** and so does the waiter as written. */
  lemma WaiterAsWrittenKeepsNoCachedText(b: LegacyBot, user: string, id: nat, elapsed: int, publishOk: bool)
    requires Valid(b.cache) && NoCachedText(b.cache) && id in b.cache.heap
    ensures NoCachedText(WaiterStepAsWritten(b, user, id, elapsed, publishOk).bot.cache)
  {
  }

  /** So "继续" never returns a reply: with no cached text it always gets the still-generating prompt and changes nothing. */
  lemma ContinueNeverDelivers(b: LegacyBot, user: string, input: string, now: int,
                              exchange: Result<OpenAIClient.HttpResponse, string>,
                              decodeBody: OpenAIClient.BodyDecoder)
    requires Valid(b.cache) && NoCachedText(b.cache) && IsContinue(input)
    ensures GetResponse(b, user, input, now, exchange, decodeBody) == Reply(b, StillGenerating, None, None, None, None)
  {
  }

  /** Concretely: a reply that reached the slot but could not be pushed is lost to "继续". */
  lemma AsWrittenLosesUnpushedReply(b: LegacyBot, user: string, text: string, input: string, now: int,
                                    exchange: Result<OpenAIClient.HttpResponse, string>,
                                    decodeBody: OpenAIClient.BodyDecoder)
    requires Valid(b.cache) && NoCachedText(b.cache) && user in b.cache.slots
    requires SlotOf(b.cache, user).mailbox == Holding(text) && text != "" && IsContinue(input)
    ensures var w := WaiterStepAsWritten(b, user, b.cache.slots[user], 0, false);
      GetResponse(w.bot, user, input, now, exchange, decodeBody).text == StillGenerating
  {
    WaiterAsWrittenKeepsNoCachedText(b, user, b.cache.slots[user], 0, false);
  }

  /** With the corrected waiter the same reply is returned by "继续", and the slot is unmapped. */
  lemma ContinueDeliversUnpushedReply(b: LegacyBot, user: string, text: string, input: string, now: int,
                                      exchange: Result<OpenAIClient.HttpResponse, string>,
                                      decodeBody: OpenAIClient.BodyDecoder)
    requires Valid(b.cache) && user in b.cache.slots
    requires SlotOf(b.cache, user).mailbox == Holding(text) && text != "" && IsContinue(input)
    ensures var w := WaiterStep(b, user, b.cache.slots[user], 0, false);
      var r := GetResponse(w.bot, user, input, now, exchange, decodeBody);
      r.Reply? && r.text == text && user !in r.bot.cache.slots
  {
  }

  /** While a slot is at most ten minutes old every other input gets the busy prompt and nothing is stored. */
  lemma SingleFlight(b: LegacyBot, user: string, input: string, now: int,
                     exchange: Result<OpenAIClient.HttpResponse, string>,
                     decodeBody: OpenAIClient.BodyDecoder)
    requires Valid(b.cache) && !IsContinue(input)
    requires user in b.cache.slots && now <= SlotOf(b.cache, user).begin + MaxChatResponseCacheTimeout
    ensures GetResponse(b, user, input, now, exchange, decodeBody) == Reply(b, AlreadyInFlight, None, None, None, None)
  {
  }

  /**
   * A new question stores the input as a `user` message before anything can
   * fail, and sends the whole history ending with it; a failed `Post`
   * returns its error and leaves the slot in place.
   */
  lemma PostFailureKeepsSlot(b: LegacyBot, user: string, input: string, now: int,
                             exchange: Result<OpenAIClient.HttpResponse, string>,
                             decodeBody: OpenAIClient.BodyDecoder)
    requires Valid(b.cache) && b.hasClient && !IsContinue(input)
    requires !(user in b.cache.slots && now <= SlotOf(b.cache, user).begin + MaxChatResponseCacheTimeout)
    requires OpenAIClient.Post(OpenAIClient.ChatCompletionPath, exchange, decodeBody).Err?
    ensures var r := GetResponse(b, user, input, now, exchange, decodeBody);
      && r.Reply? && r.text == "" && r.err.Some? && r.waiter.None?
      && r.bot.histories == AddChatSessionCtx(b.histories, user, input, true)
      && r.sent.Some? && r.sent.value[|r.sent.value| - 1] == OpenAIMessage.ChatMessage(ChatSession.RoleUser, input)
      && user in r.bot.cache.slots && SlotOf(r.bot.cache, user).begin == now
  {
    var b1 := Accept(b, user, input, now);
    assert !IsProcessing(b.cache, user, now, MaxChatResponseCacheTimeout).processing;
    assert GetResponse(b, user, input, now, exchange, decodeBody) == Ask(b1, user, exchange, decodeBody);
    var messages := GetChatSessionCtx(b1.histories, user, []);
    assert messages[|messages| - 1] == b1.histories[user][|b1.histories[user]| - 1];
  }

  /** So after a failed `Post` the user stays busy for the slot lifetime: any other input gets the busy prompt. */
  lemma PostFailureBlocksUser(b: LegacyBot, user: string, input: string, now: int,
                              exchange: Result<OpenAIClient.HttpResponse, string>,
                              decodeBody: OpenAIClient.BodyDecoder, later: int, next: string)
    requires Valid(b.cache) && b.hasClient && !IsContinue(input)
    requires !(user in b.cache.slots && now <= SlotOf(b.cache, user).begin + MaxChatResponseCacheTimeout)
    requires OpenAIClient.Post(OpenAIClient.ChatCompletionPath, exchange, decodeBody).Err?
    requires now <= later <= now + MaxChatResponseCacheTimeout && !IsContinue(next)
    ensures var r := GetResponse(b, user, input, now, exchange, decodeBody);
      r.Reply? && GetResponse(r.bot, user, next, later, exchange, decodeBody).text == AlreadyInFlight
  {
    PostFailureKeepsSlot(b, user, input, now, exchange, decodeBody);
    var r := GetResponse(b, user, input, now, exchange, decodeBody);
    SingleFlight(r.bot, user, next, later, exchange, decodeBody);
  }

  /**
   * Without a configured client a new question crashes the call after the
   * input was stored and the slot built; both survive the recovered panic,
   * so the next question within the slot lifetime gets the busy prompt.
   */
  lemma MissingClientPanics(b: LegacyBot, user: string, input: string, now: int,
                            exchange: Result<OpenAIClient.HttpResponse, string>,
                            decodeBody: OpenAIClient.BodyDecoder, later: int, next: string)
    requires Valid(b.cache) && !b.hasClient && !IsContinue(input)
    requires !(user in b.cache.slots && now <= SlotOf(b.cache, user).begin + MaxChatResponseCacheTimeout)
    requires now <= later <= now + MaxChatResponseCacheTimeout && !IsContinue(next)
    ensures var r := GetResponse(b, user, input, now, exchange, decodeBody);
      && r.Panicked?
      && r.bot.histories == AddChatSessionCtx(b.histories, user, input, true)
      && user in r.bot.cache.slots && SlotOf(r.bot.cache, user).begin == now
      && GetResponse(r.bot, user, next, later, exchange, decodeBody) == Reply(r.bot, AlreadyInFlight, None, None, None, None)
  {
    var r := GetResponse(b, user, input, now, exchange, decodeBody);
    SingleFlight(r.bot, user, next, later, exchange, decodeBody);
  }

  /**
   * The waiter gives up after one minute although the slot lives ten: a
   * reply that arrives later is neither stored nor pushed, and the slot
   * keeps the user busy.
   */
  lemma LateReplyIsDropped(b: LegacyBot, user: string, id: nat, elapsed: int, publishOk: bool)
    requires Valid(b.cache) && id in b.cache.heap
    requires WaiterTimeout <= elapsed < MaxChatResponseCacheTimeout
    ensures WaiterStepAsWritten(b, user, id, elapsed, publishOk) == Waited(b, None, TimedOut)
  {
  }

  /** The empty text of a stream that produced nothing is still stored as an `assistant` message. */
  lemma EmptyReplyIsStored(b: LegacyBot, user: string, id: nat, publishOk: bool)
    requires Valid(b.cache) && id in b.cache.heap && b.cache.heap[id].mailbox == Holding("")
    ensures var w := WaiterStepAsWritten(b, user, id, 0, publishOk);
      && w.pushed == Some("")
      && HistoryOf(w.bot.histories, user)[|HistoryOf(w.bot.histories, user)| - 1] == OpenAIMessage.ChatMessage(ChatSession.RoleAssistant, "")
  {
  }
}

=== FILE: mailbox.dfy ===
/**
 * The capacity-1 `chan string` a response slot carries (`asyncMsgChan`),
 * as a value: nothing buffered, one buffered string, or closed.
 */
module Mailbox {
  import opened Wrappers

  datatype Mailbox = Empty | Holding(value: string) | Closed

  /** What a non-blocking `select { case ch <- v: … default: … }` did. */
  datatype SendOutcome = Sent | Dropped | PanicOnClosed

  /** What a blocking `ch <- v` did; on a full channel the sender blocks for good. */
  datatype PutOutcome = Put | BlockedForever | PutPanicOnClosed

  /**
   * `close(ch)`: an empty mailbox becomes closed; closing twice panics. A
   * buffered value stays readable and each slot is read once, so closing a
   * full mailbox leaves what the reader sees unchanged.
   */
  function Close(m: Mailbox): (r: (Mailbox, bool))
    ensures r.1 <==> m != Closed
    ensures m == Empty ==> r.0 == Closed
    ensures m != Empty ==> r.0 == m
  {
    match m
    case Empty => (Closed, true)
    case Holding(_) => (m, true)
    case Closed => (m, false)
  }

  /** A receive `<-ch` that can complete now: the value and the mailbox left behind. */
  datatype Received = Received(value: string, rest: Mailbox)

  /** Non-blocking send: delivers into an empty mailbox, drops on a full one, panics on a closed one. */
  function TrySend(m: Mailbox, v: string): (r: (Mailbox, SendOutcome))
    ensures r.1 == Sent <==> m == Empty
    ensures r.1 == Sent ==> r.0 == Holding(v)
    ensures r.1 != Sent ==> r.0 == m
    ensures r.1 == PanicOnClosed <==> m == Closed
  {
    match m
    case Empty => (Holding(v), Sent)
    case Holding(_) => (m, Dropped)
    case Closed => (m, PanicOnClosed)
  }

  /** Blocking send, as the provider goroutines do it. */
  function BlockingPut(m: Mailbox, v: string): (r: (Mailbox, PutOutcome))
    ensures r.1 == Put <==> m == Empty
    ensures r.1 == Put ==> r.0 == Holding(v)
    ensures r.1 != Put ==> r.0 == m
  {
    match m
    case Empty => (Holding(v), Put)
    case Holding(_) => (m, BlockedForever)
    case Closed => (m, PutPanicOnClosed)
  }

  /**
   * A receive that does not block: a buffered value is taken, a closed
   * channel yields Go's zero value `""`; an empty one yields nothing.
   */
  function TryReceive(m: Mailbox): (r: Option<Received>)
    ensures r.None? <==> m == Empty
    ensures m.Holding? ==> r == Some(Received(m.value, Empty))
    ensures m == Closed ==> r == Some(Received("", Closed))
  {
    match m
    case Empty => None
    case Holding(v) => Some(Received(v, Empty))
    case Closed => Some(Received("", Closed))
  }

  /**
   * A receive racing a timer of `timeout` seconds (`select` with
   * `time.After`) takes a value when one is available `elapsed` seconds
   * after the wait began, `elapsed` being below the timeout.
   */
  predicate ReceivesBefore(m: Mailbox, elapsed: int, timeout: int) {
    m != Empty && elapsed < timeout
  }
}

=== FILE: openai_client.dfy ===
/**
 * The OpenAI client: `Post`'s status check, the handler table of
 * `handleMessage`, `handleChatMessage`'s two paths (event stream and plain
 * JSON), and the background loop that drains an event stream into the
 * request's mailbox.
 *
 * The HTTP exchange is an input: either a transport error or a response
 * with a status, a `Content-Type`, and two views of its body (the line
 * reader the stream path uses and the `ReadAll` result the JSON path
 * uses). JSON decoding is a parameter. The wall clock of the stream loop
 * is a trace with one reading per iteration.
 */
module OpenAIClient {
  import opened Wrappers
  import opened OpenAIMessage
  import opened StreamReader
  import opened Mailbox

  const MaxStreamWaitTimeSecs := 60
  const StatusOK := 200
  const ChatCompletionPath := "v1/chat/completions"
  const EventStreamType := "text/event-stream"
  const StreamPlaceholder :=
    "OpenAI数据生成中，请稍后， 生成完成会进行推送~ \n也可输入:\"继续\"，获取结果~"

  /** A received HTTP response. `lines` and `whole` are two readings of the same body. */
  datatype HttpResponse = HttpResponse(status: int, contentType: string, lines: Source, whole: Result<string, string>)

  datatype PostError =
    | TransportFailed(msg: string)
    | BadStatus(status: int)
    | UnsupportedPath(path: string)
    | BodyReadFailed(msg: string)
    | BodyDecodeFailed(msg: string)

  /**
   * A successful `Post`: the response handed back to the caller and, on the
   * event-stream path, the reader the background goroutine drains.
   */
  datatype Posted = Posted(rsp: ChatCompletionRsp, task: Option<Stream>)

  type BodyDecoder = string -> Result<seq<Choice>, string>

  /** The only path with a registered handler (`RegisterMessageHandler`). */
  predicate HasHandler(path: string) {
    path == ChatCompletionPath
  }

  /** `handleChatMessage`. */
  function HandleChatMessage(resp: HttpResponse, decodeBody: BodyDecoder): (r: Result<Posted, PostError>)
    ensures resp.contentType == EventStreamType ==>
      && r.Ok?
      && |r.value.rsp.choices| == 1
      && GetContent(r.value.rsp) == StreamPlaceholder
      && r.value.task == Some(Stream(false, resp.lines, []))
    ensures resp.contentType != EventStreamType ==> r.Ok? ==> r.value.task.None?
    ensures resp.contentType != EventStreamType && resp.whole.Err? ==>
      r == Err(BodyReadFailed(resp.whole.error))
    ensures resp.contentType != EventStreamType && resp.whole.Ok? && decodeBody(resp.whole.value).Err? ==>
      r == Err(BodyDecodeFailed(decodeBody(resp.whole.value).error))
    ensures resp.contentType != EventStreamType && resp.whole.Ok? && decodeBody(resp.whole.value).Ok? ==>
      r == Ok(Posted(ChatCompletionRsp("", decodeBody(resp.whole.value).value), None))
    ensures r.Ok? ==> GetMessageType(r.value.rsp) == ""
  {
    if resp.contentType == EventStreamType then
      var placeholder := Choice(0, ChatMessage("", StreamPlaceholder), ChatMessage("", ""), "");
      assert MessageContents([placeholder]) == StreamPlaceholder + MessageContents([]);
      Ok(Posted(ChatCompletionRsp("", [placeholder]), Some(Stream(false, resp.lines, []))))
    else
      match resp.whole
      case Err(e) => Err(BodyReadFailed(e))
      case Ok(bytes) =>
        match decodeBody(bytes)
        case Err(e) => Err(BodyDecodeFailed(e))
        case Ok(cs) => Ok(Posted(ChatCompletionRsp("", cs), None))
  }

  /** `handleMessage`: dispatch on the request path. */
  function HandleMessage(path: string, resp: HttpResponse, decodeBody: BodyDecoder): (r: Result<Posted, PostError>)
    ensures !HasHandler(path) ==> r == Err(UnsupportedPath(path))
    ensures HasHandler(path) ==> r == HandleChatMessage(resp, decodeBody)
  {
    if path == ChatCompletionPath then HandleChatMessage(resp, decodeBody) else Err(UnsupportedPath(path))
  }

  /** `Post`, from the moment the HTTP exchange has happened. */
  function Post(path: string, exchange: Result<HttpResponse, string>, decodeBody: BodyDecoder): (r: Result<Posted, PostError>)
    ensures exchange.Err? ==> r == Err(TransportFailed(exchange.error))
    ensures exchange.Ok? && exchange.value.status != StatusOK ==> r == Err(BadStatus(exchange.value.status))
    ensures r.Ok? ==> HasHandler(path) && exchange.Ok? && exchange.value.status == StatusOK
    ensures r.Ok? && r.value.task.Some? ==> exchange.value.contentType == EventStreamType
  {
    match exchange
    case Err(e) => Err(TransportFailed(e))
    case Ok(resp) =>
      if resp.status != StatusOK then Err(BadStatus(resp.status))
      else HandleMessage(path, resp, decodeBody)
  }

  // ----- the stream goroutine -----

  /** Why the accumulation loop stopped. `InputEnded` only arises in the corrected loop. */
  datatype Exit = Finished | RecvFailed(e: RecvError) | CapReached | InputEnded

  datatype PumpResult = PumpResult(text: string, stream: Stream, exit: Exit)

  /** The clock trace reaches the cap; this is what makes the loop stop when nothing else does. */
  predicate CapWithin(clock: seq<int>, begin: int) {
    |clock| > 0 && clock[|clock| - 1] - begin >= MaxStreamWaitTimeSecs
  }

  /** The iteration at which the clock first reads the cap. */
  function CapIndex(clock: seq<int>, begin: int): (i: nat)
    requires CapWithin(clock, begin)
    ensures i < |clock| && clock[i] - begin >= MaxStreamWaitTimeSecs
    ensures forall j :: 0 <= j < i ==> clock[j] - begin < MaxStreamWaitTimeSecs
  {
    if clock[0] - begin >= MaxStreamWaitTimeSecs then 0 else 1 + CapIndex(clock[1..], begin)
  }

  /**
   * The loop of `handleChatMessage`'s goroutine as written: call `Recv`;
   * stop on an error other than `io.EOF`; otherwise append the delta texts
   * of the reader's current choices; stop once `now - begin >= 60`; repeat
   * while the reader is not finished. `clock[i]` is `now` in iteration `i`.
   */
  function Pump(s: Stream, decode: Decoder, clock: seq<int>, begin: int): (r: PumpResult)
    requires CapWithin(clock, begin)
    ensures r.exit == Finished ==> r.stream.isFinished
    ensures r.exit.RecvFailed? ==> r.exit.e != Eof
    ensures r.exit != InputEnded
    ensures s.isFinished ==> r == PumpResult("", s, Finished)
    decreases |clock|
  {
    if s.isFinished then PumpResult("", s, Finished)
    else
      var rr := Recv(s, decode);
      if rr.err.Some? && rr.err.value != Eof then PumpResult("", rr.stream, RecvFailed(rr.err.value))
      else
        var piece := DeltaContents(rr.stream.response);
        if clock[0] - begin >= MaxStreamWaitTimeSecs then PumpResult(piece, rr.stream, CapReached)
        else
          var rest := Pump(rr.stream, decode, clock[1..], begin);
          PumpResult(piece + rest.text, rest.stream, rest.exit)
  }

  /**
   * The loop with both defects removed: a fragment is appended only when
   * `Recv` returned `nil`, and any error, `io.EOF` included, ends the loop.
   */
  function PumpCorrected(s: Stream, decode: Decoder, clock: seq<int>, begin: int): (r: PumpResult)
    requires CapWithin(clock, begin)
    ensures r.exit == Finished <==> r.stream.isFinished
    ensures r.exit.RecvFailed? ==> r.exit.e != Eof
    ensures s.isFinished ==> r == PumpResult("", s, Finished)
    decreases |clock|
  {
    if s.isFinished then PumpResult("", s, Finished)
    else
      var rr := Recv(s, decode);
      if rr.err == Some(Eof) then
        PumpResult("", rr.stream, if rr.stream.isFinished then Finished else InputEnded)
      else if rr.err.Some? then PumpResult("", rr.stream, RecvFailed(rr.err.value))
      else
        var piece := DeltaContents(rr.stream.response);
        if clock[0] - begin >= MaxStreamWaitTimeSecs then PumpResult(piece, rr.stream, CapReached)
        else
          var rest := PumpCorrected(rr.stream, decode, clock[1..], begin);
          PumpResult(piece + rest.text, rest.stream, rest.exit)
  }

  datatype StreamRun = StreamRun(pump: PumpResult, mailbox: Mailbox, send: SendOutcome)

  /**
   * The whole goroutine: the loop, then one non-blocking send of the
   * accumulated text. It runs the corrected loop; `Pump` keeps the loop as
   * written for the two lemmas that exhibit its defects.
   */
  function RunStream(task: Stream, decode: Decoder, clock: seq<int>, begin: int, mb: Mailbox): (r: StreamRun)
    requires CapWithin(clock, begin)
    ensures r.pump == PumpCorrected(task, decode, clock, begin)
    ensures mb == Empty ==> r.mailbox == Holding(r.pump.text) && r.send == Sent
    ensures mb.Holding? ==> r.mailbox == mb && r.send == Dropped
  {
    var p := PumpCorrected(task, decode, clock, begin);
    var (m, o) := TrySend(mb, p.text);
    StreamRun(p, m, o)
  }

  // ----- what the loop delivers -----

  /** `n` copies of `t`. */
  function Repeat(t: string, n: nat): string {
    if n == 0 then "" else t + Repeat(t, n - 1)
  }

  /** The line that carries payload `p`. */
  function FrameLine(p: string): string {
    Header + p
  }

  function FrameLines(ps: seq<string>): (ls: seq<string>)
    ensures |ls| == |ps|
    ensures forall i :: 0 <= i < |ps| ==> ls[i] == FrameLine(ps[i])
  {
    if ps == [] then [] else [FrameLine(ps[0])] + FrameLines(ps[1..])
  }

  /** A payload that survives trimming, is not the sentinel, and decodes. */
  predicate GoodPayload(p: string, decode: Decoder) {
    p != [] && !Text.IsSpace(p[|p| - 1]) && p != Done && decode(p).Some?
  }

  /** The delta texts of the frames `ps`, in order: what a stream of them is meant to deliver. */
  function FramesText(ps: seq<string>, decode: Decoder): string {
    if ps == [] then "" else DeltaContents(decode(ps[0]).GetOr([])) + FramesText(ps[1..], decode)
  }

  /** The choices the reader holds after the frames `ps`, starting from `initial`. */
  function LastResponse(ps: seq<string>, decode: Decoder, initial: seq<Choice>): seq<Choice> {
    if ps == [] then initial else decode(ps[|ps| - 1]).GetOr([])
  }

  /** A frame line is read back as its own payload. */
  lemma FrameLineReadsBack(p: string)
    requires p != [] && !Text.IsSpace(p[|p| - 1])
    ensures IsData(FrameLine(p)) && Payload(FrameLine(p)) == p
  {
    var l := FrameLine(p);
    assert l[0] == 'd' && l[|l| - 1] == p[|p| - 1];
    assert l[..|Header|] == Header;
    assert l[|Header|..] == p;
  }

  /** Reading a stream that starts with a good frame line consumes exactly that line. */
  lemma RecvGoodFrame(s: Stream, decode: Decoder, p: string, rest: seq<string>)
    requires !s.isFinished && GoodPayload(p, decode)
    requires s.src.lines == [FrameLine(p)] + rest
    ensures Recv(s, decode) == RecvResult(None, WithLines(s, rest).(response := decode(p).value))
  {
    FrameLineReadsBack(p);
    assert DataIndex(s.src.lines) == 0;
    assert s.src.lines[1..] == rest;
  }

  /** Reading the sentinel line finishes the stream and keeps the previous frame's choices. */
  lemma RecvDone(s: Stream, decode: Decoder)
    requires !s.isFinished && s.src.lines == [FrameLine(Done)]
    ensures Recv(s, decode) == RecvResult(Some(Eof), WithLines(s, []).(isFinished := true))
  {
    FrameLineReadsBack(Done);
    assert DataIndex(s.src.lines) == 0;
  }

  /** One iteration of the loop as written on a frame that decoded, before the cap. */
  lemma PumpFrameStep(s: Stream, decode: Decoder, clock: seq<int>, begin: int, next: Stream)
    requires CapWithin(clock, begin) && !s.isFinished
    requires Recv(s, decode) == RecvResult(None, next)
    requires clock[0] - begin < MaxStreamWaitTimeSecs
    ensures Pump(s, decode, clock, begin).text == DeltaContents(next.response) + Pump(next, decode, clock[1..], begin).text
    ensures Pump(s, decode, clock, begin).stream == Pump(next, decode, clock[1..], begin).stream
  {
  }

  /** The same iteration of the corrected loop. */
  lemma PumpCorrectedFrameStep(s: Stream, decode: Decoder, clock: seq<int>, begin: int, next: Stream)
    requires CapWithin(clock, begin) && !s.isFinished
    requires Recv(s, decode) == RecvResult(None, next)
    requires clock[0] - begin < MaxStreamWaitTimeSecs
    ensures PumpCorrected(s, decode, clock, begin).text
         == DeltaContents(next.response) + PumpCorrected(next, decode, clock[1..], begin).text
    ensures PumpCorrected(s, decode, clock, begin).exit == PumpCorrected(next, decode, clock[1..], begin).exit
  {
  }

  lemma AppendAssoc(a: string, b: string, c: string)
    ensures a + (b + c) == (a + b) + c
  {
  }

  /** The clock conditions of the frame lemmas carry over to the rest of the trace. */
  lemma ClockTail(clock: seq<int>, begin: int, n: nat)
    requires CapWithin(clock, begin) && 0 < n < |clock|
    requires forall i :: 0 <= i < n ==> clock[i] - begin < MaxStreamWaitTimeSecs
    ensures CapWithin(clock[1..], begin) && n - 1 < |clock[1..]|
    ensures forall i :: 0 <= i < n - 1 ==> clock[1..][i] - begin < MaxStreamWaitTimeSecs
  {
    forall i | 0 <= i < n - 1 ensures clock[1..][i] - begin < MaxStreamWaitTimeSecs {
      assert clock[1..][i] == clock[i + 1];
    }
  }

  /** After the first frame, the rest of the frames end on the same choices. */
  lemma LastResponseTail(ps: seq<string>, decode: Decoder, initial: seq<Choice>)
    requires ps != []
    ensures LastResponse(ps[1..], decode, decode(ps[0]).GetOr([])) == LastResponse(ps, decode, initial)
  {
    if |ps| > 1 {
      assert ps[1..][|ps[1..]| - 1] == ps[|ps| - 1];
    }
  }

  /**
   * As written, the loop appends the last frame's fragments twice: the
   * `[DONE]` call returns `io.EOF`, which does not stop the loop, and the
   * reader still holds the previous frame's choices.
   */
  lemma {:induction false} DoneReappendsLastFrame(s: Stream, decode: Decoder, ps: seq<string>, clock: seq<int>, begin: int)
    requires !s.isFinished
    requires forall i :: 0 <= i < |ps| ==> GoodPayload(ps[i], decode)
    requires s.src.lines == FrameLines(ps) + [FrameLine(Done)]
    requires CapWithin(clock, begin) && |ps| < |clock|
    requires forall i :: 0 <= i < |ps| ==> clock[i] - begin < MaxStreamWaitTimeSecs
    ensures Pump(s, decode, clock, begin).text
         == FramesText(ps, decode) + DeltaContents(LastResponse(ps, decode, s.response))
    ensures Pump(s, decode, clock, begin).stream.isFinished
    decreases |ps|
  {
    if ps == [] {
      assert s.src.lines == [FrameLine(Done)];
      RecvDone(s, decode);
    } else {
      ClockTail(clock, begin, |ps|);
      var rest := FrameLines(ps[1..]) + [FrameLine(Done)];
      assert FrameLines(ps) == [FrameLine(ps[0])] + FrameLines(ps[1..]);
      assert s.src.lines == [FrameLine(ps[0])] + rest;
      RecvGoodFrame(s, decode, ps[0], rest);
      var s' := WithLines(s, rest).(response := decode(ps[0]).value);
      PumpFrameStep(s, decode, clock, begin, s');
      DoneReappendsLastFrame(s', decode, ps[1..], clock[1..], begin);
      var last := LastResponse(ps, decode, s.response);
      LastResponseTail(ps, decode, s.response);
      var head := DeltaContents(s'.response);
      assert FramesText(ps, decode) == head + FramesText(ps[1..], decode);
      calc {
        Pump(s, decode, clock, begin).text;
        head + Pump(s', decode, clock[1..], begin).text;
        head + (FramesText(ps[1..], decode) + DeltaContents(last));
        { AppendAssoc(head, FramesText(ps[1..], decode), DeltaContents(last)); }
        (head + FramesText(ps[1..], decode)) + DeltaContents(last);
      }
    }
  }

  /** The smallest case: one frame "Hi" then `[DONE]` delivers "HiHi". */
  lemma OneFrameDeliveredTwice(s: Stream, decode: Decoder, clock: seq<int>, begin: int)
    requires !s.isFinished && GoodPayload("f", decode)
    requires decode("f") == Some([Choice(0, ChatMessage("", ""), ChatMessage("assistant", "Hi"), "")])
    requires s.src.lines == [FrameLine("f"), FrameLine(Done)]
    requires CapWithin(clock, begin) && |clock| > 1 && clock[0] - begin < MaxStreamWaitTimeSecs
    ensures Pump(s, decode, clock, begin).text == "HiHi"
  {
    assert s.src.lines == FrameLines(["f"]) + [FrameLine(Done)];
    DoneReappendsLastFrame(s, decode, ["f"], clock, begin);
    assert FramesText(["f"], decode) == "Hi";
  }

  /**
   * As written, a stream that ends without `[DONE]` keeps returning
   * `io.EOF`; the loop spins until the cap and appends the last frame's
   * fragments once per spin.
   */
  lemma {:induction false} ExhaustedInputSpins(s: Stream, decode: Decoder, clock: seq<int>, begin: int)
    requires !s.isFinished && s.src.lines == [] && s.src.end == AtEof
    requires CapWithin(clock, begin)
    ensures Pump(s, decode, clock, begin)
         == PumpResult(Repeat(DeltaContents(s.response), CapIndex(clock, begin) + 1), s, CapReached)
    decreases |clock|
  {
    assert Recv(s, decode) == RecvResult(Some(Eof), s);
    if clock[0] - begin < MaxStreamWaitTimeSecs {
      ExhaustedInputSpins(s, decode, clock[1..], begin);
    }
  }

  /** The corrected loop delivers each frame's fragments exactly once, in order. */
  lemma {:induction false} CorrectedDeliversFrames(s: Stream, decode: Decoder, ps: seq<string>, clock: seq<int>, begin: int)
    requires !s.isFinished
    requires forall i :: 0 <= i < |ps| ==> GoodPayload(ps[i], decode)
    requires s.src.lines == FrameLines(ps) + [FrameLine(Done)]
    requires CapWithin(clock, begin) && |ps| < |clock|
    requires forall i :: 0 <= i < |ps| ==> clock[i] - begin < MaxStreamWaitTimeSecs
    ensures PumpCorrected(s, decode, clock, begin).text == FramesText(ps, decode)
    ensures PumpCorrected(s, decode, clock, begin).exit == Finished
    decreases |ps|
  {
    if ps == [] {
      assert s.src.lines == [FrameLine(Done)];
      RecvDone(s, decode);
    } else {
      ClockTail(clock, begin, |ps|);
      var rest := FrameLines(ps[1..]) + [FrameLine(Done)];
      assert FrameLines(ps) == [FrameLine(ps[0])] + FrameLines(ps[1..]);
      assert s.src.lines == [FrameLine(ps[0])] + rest;
      RecvGoodFrame(s, decode, ps[0], rest);
      var s' := WithLines(s, rest).(response := decode(ps[0]).value);
      PumpCorrectedFrameStep(s, decode, clock, begin, s');
      CorrectedDeliversFrames(s', decode, ps[1..], clock[1..], begin);
    }
  }

  /** The corrected loop stops at the end of the input instead of spinning. */
  lemma CorrectedStopsAtInputEnd(s: Stream, decode: Decoder, clock: seq<int>, begin: int)
    requires !s.isFinished && s.src.lines == [] && s.src.end == AtEof
    requires CapWithin(clock, begin)
    ensures PumpCorrected(s, decode, clock, begin) == PumpResult("", s, InputEnded)
  {
    assert Recv(s, decode) == RecvResult(Some(Eof), s);
  }

  /**
   * A well-formed stream ending in `[DONE]`, read before the cap, leaves the
   * concatenation of its frames' delta texts in an empty mailbox.
   */
  lemma RunStreamDeliversFrames(task: Stream, decode: Decoder, ps: seq<string>, clock: seq<int>, begin: int)
    requires !task.isFinished
    requires forall i :: 0 <= i < |ps| ==> GoodPayload(ps[i], decode)
    requires task.src.lines == FrameLines(ps) + [FrameLine(Done)]
    requires CapWithin(clock, begin) && |ps| < |clock|
    requires forall i :: 0 <= i < |ps| ==> clock[i] - begin < MaxStreamWaitTimeSecs
    ensures RunStream(task, decode, clock, begin, Empty).mailbox == Holding(FramesText(ps, decode))
    ensures RunStream(task, decode, clock, begin, Empty).pump.exit == Finished
  {
    CorrectedDeliversFrames(task, decode, ps, clock, begin);
  }

  /**
   * What the program's goroutine, which runs the loop as written, leaves in
   * an empty mailbox for the same stream: the frames' text followed by the
   * last frame's fragments once more.
   */
  lemma AsWrittenGoroutinePushes(task: Stream, decode: Decoder, ps: seq<string>, clock: seq<int>, begin: int)
    requires !task.isFinished
    requires forall i :: 0 <= i < |ps| ==> GoodPayload(ps[i], decode)
    requires task.src.lines == FrameLines(ps) + [FrameLine(Done)]
    requires CapWithin(clock, begin) && |ps| < |clock|
    requires forall i :: 0 <= i < |ps| ==> clock[i] - begin < MaxStreamWaitTimeSecs
    ensures TrySend(Empty, Pump(task, decode, clock, begin).text).0
         == Holding(FramesText(ps, decode) + DeltaContents(LastResponse(ps, decode, task.response)))
  {
    DoneReappendsLastFrame(task, decode, ps, clock, begin);
  }
}

=== FILE: openai_message.dfy ===
/**
 * The chat-completion message shapes of the OpenAI client and the two
 * small readers the orchestrators use: `GetContent` (the final messages)
 * and `GetDeltaContent` (one streamed fragment).
 */
module OpenAIMessage {

  /** One message of a chat: a role (`system`, `user`, `assistant`, or whatever was stored) and its text. */
  datatype ChatMessage = ChatMessage(role: string, content: string)

  /** One choice of a completion: the whole `message` of a plain reply, the `delta` of a streamed frame. */
  datatype Choice = Choice(index: int, message: ChatMessage, delta: ChatMessage, finishReason: string)

  /**
   * A chat completion. `msgType` is the unexported tag of the embedded
   * `Message`; id, object, created, model and usage are not modelled.
   */
  datatype ChatCompletionRsp = ChatCompletionRsp(msgType: string, choices: seq<Choice>)

  /** `Message.GetMessageType`: the stored tag. */
  function GetMessageType(m: ChatCompletionRsp): (t: string)
    ensures t == m.msgType
  {
    m.msgType
  }

  /** `ChatCompletionChoice.GetDeltaContent`: the text of the streamed fragment only. */
  function GetDeltaContent(c: Choice): (r: string)
    ensures r == c.delta.content
  {
    c.delta.content
  }

  /** The message texts of `cs`, in order. */
  function MessageContents(cs: seq<Choice>): string {
    if cs == [] then "" else cs[0].message.content + MessageContents(cs[1..])
  }

  /** The delta texts of `cs`, in order. */
  function DeltaContents(cs: seq<Choice>): string {
    if cs == [] then "" else GetDeltaContent(cs[0]) + DeltaContents(cs[1..])
  }

  /** `ChatCompletionRsp.GetContent`: the first choice's message text, then the rest in order. */
  function GetContent(m: ChatCompletionRsp): (r: string)
    ensures m.choices == [] ==> r == ""
    ensures m.choices != [] ==> r == m.choices[0].message.content + MessageContents(m.choices[1..])
    ensures |m.choices| == 1 ==> r == m.choices[0].message.content
  {
    MessageContents(m.choices)
  }

  /** Concatenating choice lists concatenates their contents. */
  lemma {:induction false} MessageContentsAppend(a: seq<Choice>, b: seq<Choice>)
    ensures MessageContents(a + b) == MessageContents(a) + MessageContents(b)
    decreases |a|
  {
    if a != [] {
      assert (a + b)[1..] == a[1..] + b;
      MessageContentsAppend(a[1..], b);
    } else {
      assert a + b == b;
    }
  }

  /** The same for delta texts. */
  lemma {:induction false} DeltaContentsAppend(a: seq<Choice>, b: seq<Choice>)
    ensures DeltaContents(a + b) == DeltaContents(a) + DeltaContents(b)
    decreases |a|
  {
    if a != [] {
      assert (a + b)[1..] == a[1..] + b;
      DeltaContentsAppend(a[1..], b);
    } else {
      assert a + b == b;
    }
  }

  /** GetContent reads only `message`: two responses whose choices agree on messages agree on content. */
  lemma {:induction false} ContentIgnoresDelta(a: seq<Choice>, b: seq<Choice>)
    requires |a| == |b|
    requires forall i :: 0 <= i < |a| ==> a[i].message.content == b[i].message.content
    ensures MessageContents(a) == MessageContents(b)
    decreases |a|
  {
    if a != [] {
      ContentIgnoresDelta(a[1..], b[1..]);
    }
  }

  /** Delta texts read only `delta`: two choice lists that agree on deltas agree on delta text. */
  lemma {:induction false} DeltaIgnoresMessage(a: seq<Choice>, b: seq<Choice>)
    requires |a| == |b|
    requires forall i :: 0 <= i < |a| ==> a[i].delta.content == b[i].delta.content
    ensures DeltaContents(a) == DeltaContents(b)
    decreases |a|
  {
    if a != [] {
      DeltaIgnoresMessage(a[1..], b[1..]);
    }
  }

  /** The Go loop of `GetContent`: appends each choice's message text in order. */
  method ComputeContent(m: ChatCompletionRsp) returns (content: string)
    ensures content == GetContent(m)
    ensures m.choices == [] ==> content == ""
    ensures |m.choices| == 1 ==> content == m.choices[0].message.content
  {
    content := "";
    var i := 0;
    while i < |m.choices|
      invariant 0 <= i <= |m.choices|
      invariant content == MessageContents(m.choices[..i])
    {
      MessageContentsAppend(m.choices[..i], [m.choices[i]]);
      assert m.choices[..i + 1] == m.choices[..i] + [m.choices[i]];
      content := content + m.choices[i].message.content;
      i := i + 1;
    }
    assert m.choices[..i] == m.choices;
  }
}

=== FILE: response_cache.dfy ===
/**
 * The per-user response slots both chatbot orchestrators keep
 * (`chatResponseCacheMap` of `*chatResponseCache`) and the four small
 * operations on them that run under `rspCacheMu`.
 *
 * A slot is an object shared between the map, the request that created
 * it, and the goroutines that fill and read it, so the map holds object
 * ids into a heap rather than slot values. `locked` records that
 * `rspCacheMu` was taken and never released; every operation that takes
 * the lock then blocks for good, which callers model as a blocked result.
 */
module ResponseCache {
  import opened Mailbox
  import opened Text
  import StreamReader
  import OpenAIClient

  /** The user command that asks for the cached reply. */
  const ContinueCommand := "继续"

  /** The input is the continue command once surrounding white space is trimmed. */
  predicate IsContinue(input: string) {
    TrimSpace(input) == ContinueCommand
  }

  /** `chatResponseCache`: cached reply text, creation time, provider name, and the capacity-1 channel. */
  datatype Slot = Slot(content: string, begin: int, ai: string, mailbox: Mailbox)

  datatype Cache = Cache(slots: map<string, nat>, heap: map<nat, Slot>, nextId: nat, locked: bool)

  /** Every mapped id is allocated, ids are allocated below `nextId`, and no two users share a slot. */
  predicate Valid(c: Cache) {
    && (forall u :: u in c.slots ==> c.slots[u] in c.heap)
    && (forall id :: id in c.heap ==> id < c.nextId)
    && (forall u, v :: u in c.slots && v in c.slots && u != v ==> c.slots[u] != c.slots[v])
  }

  /** The slot object of `user`. */
  function SlotOf(c: Cache, user: string): Slot
    requires Valid(c) && user in c.slots
  {
    c.heap[c.slots[user]]
  }

  /** `a` and `b` agree on every user but `user`. */
  ghost predicate SlotsAgreeExcept(a: map<string, nat>, b: map<string, nat>, user: string) {
    forall u :: u != user ==> (u in a <==> u in b) && (u in a ==> a[u] == b[u])
  }

  /** The slot of `user` was created more than `ttl` seconds before `now`. */
  predicate Expired(c: Cache, user: string, now: int, ttl: int)
    requires Valid(c)
  {
    user in c.slots && SlotOf(c, user).begin + ttl < now
  }

  datatype Checked = Checked(cache: Cache, processing: bool)

  /**
   * `isProcessing`: a request is in flight for `user` when a slot exists
   * that is at most `ttl` seconds old; an older slot is deleted on the way.
   */
  function IsProcessing(c: Cache, user: string, now: int, ttl: int): (r: Checked)
    requires Valid(c)
    ensures Valid(r.cache)
    ensures r.processing <==> user in c.slots && now <= SlotOf(c, user).begin + ttl
    ensures user in r.cache.slots <==> r.processing
    ensures r.processing ==> r.cache == c
    ensures SlotsAgreeExcept(c.slots, r.cache.slots, user)
    ensures r.cache.heap == c.heap && r.cache.nextId == c.nextId && r.cache.locked == c.locked
  {
    if Expired(c, user, now, ttl) then Checked(ClearChatCache(c, user), false)
    else Checked(c, user in c.slots)
  }

  /** `preHitProcess`: the cached reply text of `user`'s slot, `""` without a slot. */
  function PreHitProcess(c: Cache, user: string): (content: string)
    requires Valid(c)
    ensures user !in c.slots ==> content == ""
    ensures user in c.slots ==> content == SlotOf(c, user).content
  {
    if user in c.slots then SlotOf(c, user).content else ""
  }

  /**
   * `buildChatCache`: an existing slot is reused with its time refreshed;
   * otherwise a new slot with an empty channel is allocated and mapped.
   */
  function BuildChatCache(c: Cache, user: string, now: int): (r: Cache)
    requires Valid(c)
    ensures Valid(r) && user in r.slots && SlotOf(r, user).begin == now
    ensures user in c.slots ==> r.slots == c.slots && SlotOf(r, user) == SlotOf(c, user).(begin := now)
    ensures user !in c.slots ==> r.slots[user] !in c.heap && SlotOf(r, user) == Slot("", now, "", Empty)
    ensures SlotsAgreeExcept(c.slots, r.slots, user)
    ensures forall id :: id in c.heap && (user !in c.slots || id != c.slots[user]) ==> id in r.heap && r.heap[id] == c.heap[id]
    ensures r.locked == c.locked
  {
    if user in c.slots then
      var id := c.slots[user];
      c.(heap := c.heap[id := c.heap[id].(begin := now)])
    else
      c.(slots := c.slots[user := c.nextId],
         heap := c.heap[c.nextId := Slot("", now, "", Empty)],
         nextId := c.nextId + 1)
  }

  /** `clearChatCache`: unmaps `user`'s slot; goroutines holding the object keep it. */
  function ClearChatCache(c: Cache, user: string): (r: Cache)
    requires Valid(c)
    ensures Valid(r) && user !in r.slots
    ensures SlotsAgreeExcept(c.slots, r.slots, user)
    ensures r.heap == c.heap && r.nextId == c.nextId && r.locked == c.locked
  {
    c.(slots := c.slots - {user})
  }

  /** Replaces the object `id`; the map is untouched. */
  function SetSlot(c: Cache, id: nat, s: Slot): (r: Cache)
    requires Valid(c) && id in c.heap
    ensures Valid(r) && r.slots == c.slots && r.heap == c.heap[id := s] && r.locked == c.locked
  {
    c.(heap := c.heap[id := s])
  }

  /** The OpenAI stream goroutine, writing into the slot whose channel it was given. */
  function DeliverStream(c: Cache, id: nat, task: StreamReader.Stream, decode: StreamReader.Decoder,
                         clock: seq<int>, begin: int): (r: Cache)
    requires Valid(c) && id in c.heap && OpenAIClient.CapWithin(clock, begin)
    ensures Valid(r) && r.slots == c.slots && r.locked == c.locked && id in r.heap
    ensures c.heap[id].mailbox == Empty ==>
      r.heap[id] == c.heap[id].(mailbox := Holding(OpenAIClient.PumpCorrected(task, decode, clock, begin).text))
    ensures c.heap[id].mailbox != Empty ==> r == c
    ensures forall other :: other in c.heap && other != id ==> other in r.heap && r.heap[other] == c.heap[other]
  {
    var s := c.heap[id];
    var run := OpenAIClient.RunStream(task, decode, clock, begin, s.mailbox);
    SetSlot(c, id, s.(mailbox := run.mailbox))
  }

  /** The lock is taken and never released. */
  function Leak(c: Cache): Cache {
    c.(locked := true)
  }

  /** A slot that is expired is replaced by a fresh one: a new object with no cached text and an empty channel. */
  lemma ExpiredSlotIsReplaced(c: Cache, user: string, now: int, ttl: int)
    requires Valid(c) && Expired(c, user, now, ttl)
    ensures var r := BuildChatCache(IsProcessing(c, user, now, ttl).cache, user, now);
      r.slots[user] != c.slots[user] && SlotOf(r, user) == Slot("", now, "", Empty)
  {
  }
}

=== FILE: stream_reader.dfy ===
/**
 * `streamReader.Recv`: reads one frame of a chat-completion event stream.
 *
 * This is a small subset of the `text/event-stream` format of the HTML
 * Living Standard, section 9.2 "Server-sent events": only lines that start
 * with `data: ` carry a frame, the payload `[DONE]` ends the stream, and
 * every other line (blank lines included) is skipped and counted.
 *
 * The byte reader is a sequence of lines, each one a successful
 * `ReadBytes('\n')`, followed by the error every later read returns
 * (end of input or a transport failure). JSON decoding of a frame is a
 * parameter: a partial function from payload to the frame's choices.
 */
module StreamReader {
  import opened Wrappers
  import opened Text
  import opened OpenAIMessage

  const Header := "data: "
  const Done := "[DONE]"
  /** More than this many skipped lines within one call is fatal. */
  const MaxEmptyMessages := 10

  /** The error a read returns once the buffered lines are used up. */
  datatype ReadError = AtEof | ReadFailure(msg: string)

  datatype Source = Source(lines: seq<string>, end: ReadError)

  /** The errors `Recv` returns: `io.EOF`, a transport error, `ErrTooManyEmptyStreamMessages`, a JSON error. */
  datatype RecvError = Eof | ReadFailed(msg: string) | TooManyEmptyMessages | DecodeFailed

  /** The reader state: the `isFinished` flag, the unread input, and the choices of the last decoded frame. */
  datatype Stream = Stream(isFinished: bool, src: Source, response: seq<Choice>)

  /** `Recv`'s return value (`nil` is `None`) and the reader state after the call. */
  datatype RecvResult = RecvResult(err: Option<RecvError>, stream: Stream)

  type Decoder = string -> Option<seq<Choice>>

  function AsRecvError(e: ReadError): RecvError {
    match e
    case AtEof => Eof
    case ReadFailure(m) => ReadFailed(m)
  }

  /** A line carries a frame when, once trimmed, it starts with the header. */
  predicate IsData(line: string) {
    HasPrefix(TrimSpace(line), Header)
  }

  /** The frame payload of a line: the trimmed line without the header. */
  function Payload(line: string): string {
    TrimPrefix(TrimSpace(line), Header)
  }

  /** The index of the first line that carries a frame, or `|lines|` when none does. */
  function DataIndex(lines: seq<string>): (k: nat)
    ensures k <= |lines|
    ensures forall i :: 0 <= i < k ==> !IsData(lines[i])
    ensures k < |lines| ==> IsData(lines[k])
  {
    if lines == [] then 0
    else if IsData(lines[0]) then 0
    else 1 + DataIndex(lines[1..])
  }

  /** `s` with its unread lines replaced by `rest`. */
  function WithLines(s: Stream, rest: seq<string>): Stream {
    s.(src := s.src.(lines := rest))
  }

  /**
   * What `Recv` does with the payload of the frame line it stopped at; `s`
   * has that line consumed. The sentinel finishes the reader with `io.EOF`
   * and keeps the previous choices; a payload that decodes replaces them;
   * one that does not is a decode error that leaves the reader unfinished.
   */
  function Deliver(s: Stream, decode: Decoder, p: string): (r: RecvResult)
    ensures p == Done ==> r == RecvResult(Some(Eof), s.(isFinished := true))
    ensures p != Done && decode(p).Some? ==> r == RecvResult(None, s.(response := decode(p).value))
    ensures p != Done && decode(p).None? ==> r == RecvResult(Some(DecodeFailed), s)
    ensures r.stream.src == s.src
    ensures r.err.None? ==> !r.stream.isFinished || s.isFinished
    ensures r.stream.isFinished != s.isFinished ==> r.err == Some(Eof)
  {
    if p == Done then
      RecvResult(Some(Eof), s.(isFinished := true))
    else match decode(p)
      case None => RecvResult(Some(DecodeFailed), s)
      case Some(cs) => RecvResult(None, s.(response := cs))
  }

  /**
   * The outcome of reading one frame from `s` when `skipped` lines were
   * already skipped in this call, stated through the position of the first
   * frame line rather than line by line.
   */
  ghost predicate FrameRead(s: Stream, decode: Decoder, skipped: nat, r: RecvResult)
    requires skipped <= MaxEmptyMessages
  {
    var lines := s.src.lines;
    var k := DataIndex(lines);
    var n := MaxEmptyMessages + 1 - skipped;
    if k >= n then
      // the (MaxEmptyMessages + 1)-th skipped line of this call is fatal
      r == RecvResult(Some(TooManyEmptyMessages), WithLines(s, lines[n..]))
    else if k == |lines| then
      // input ran out first: the read error is returned as it is
      r == RecvResult(Some(AsRecvError(s.src.end)), WithLines(s, []))
    else
      r == Deliver(WithLines(s, lines[k + 1..]), decode, Payload(lines[k]))
  }

  /** The `waitForData` loop of `Recv`, one line per step. */
  function ReadFrame(s: Stream, decode: Decoder, skipped: nat): (r: RecvResult)
    requires skipped <= MaxEmptyMessages
    ensures FrameRead(s, decode, skipped, r)
    decreases |s.src.lines|
  {
    var lines := s.src.lines;
    if lines == [] then
      RecvResult(Some(AsRecvError(s.src.end)), s)
    else
      var rest := WithLines(s, lines[1..]);
      if !IsData(lines[0]) then
        if skipped + 1 > MaxEmptyMessages then
          RecvResult(Some(TooManyEmptyMessages), rest)
        else
          var r := ReadFrame(rest, decode, skipped + 1);
          SkipStep(s, decode, skipped, r);
          r
      else
        Deliver(rest, decode, Payload(lines[0]))
  }

  /** Skipping a non-frame line moves the frame index back by one and counts one more skip. */
  lemma SkipStep(s: Stream, decode: Decoder, skipped: nat, r: RecvResult)
    requires skipped < MaxEmptyMessages
    requires s.src.lines != [] && !IsData(s.src.lines[0])
    requires FrameRead(WithLines(s, s.src.lines[1..]), decode, skipped + 1, r)
    ensures FrameRead(s, decode, skipped, r)
  {
    var lines := s.src.lines;
    var tail := lines[1..];
    var k := DataIndex(lines);
    var n := MaxEmptyMessages + 1 - skipped;
    assert k == 1 + DataIndex(tail);
    if k >= n {
      assert tail[n - 1..] == lines[n..];
    } else if k == |lines| {
    } else {
      assert tail[k..] == lines[k + 1..];
      assert tail[k - 1] == lines[k];
    }
  }

  /** `streamReader.Recv`. */
  function Recv(s: Stream, decode: Decoder): (r: RecvResult)
    ensures s.isFinished ==> r == RecvResult(Some(Eof), s)
    ensures !s.isFinished ==> FrameRead(s, decode, 0, r)
  {
    if s.isFinished then RecvResult(Some(Eof), s) else ReadFrame(s, decode, 0)
  }
}

=== FILE: text.dfy ===
/**
 * Go's whitespace trimming and prefix helpers (`strings.TrimSpace`,
 * `bytes.TrimSpace`, `bytes.HasPrefix`, `bytes.TrimPrefix`), on strings
 * taken as sequences of Unicode code points.
 */
module Text {

  /** Go's `unicode.IsSpace`: the Latin-1 spaces plus the Unicode White_Space set. */
  predicate IsSpace(c: char) {
    || c == ' ' || c == '\t' || c == '\n' || c == '\r'
    || c == '\U{0B}' || c == '\U{0C}' || c == '\U{85}' || c == '\U{A0}'
    || c == '\U{1680}' || ('\U{2000}' <= c <= '\U{200A}')
    || c == '\U{2028}' || c == '\U{2029}' || c == '\U{202F}'
    || c == '\U{205F}' || c == '\U{3000}'
  }

  /** Drops the leading whitespace of `s`. */
  function TrimLeft(s: string): string {
    if |s| > 0 && IsSpace(s[0]) then TrimLeft(s[1..]) else s
  }

  /** Drops the trailing whitespace of `s`. */
  function TrimRight(s: string): string {
    if |s| > 0 && IsSpace(s[|s| - 1]) then TrimRight(s[..|s| - 1]) else s
  }

  /** `strings.TrimSpace` and `bytes.TrimSpace`; a string with no white space at either end is its own trimming. */
  function TrimSpace(s: string): (r: string)
    ensures s == [] || (!IsSpace(s[0]) && !IsSpace(s[|s| - 1])) ==> r == s
  {
    TrimRight(TrimLeft(s))
  }

  /** TrimLeft removes exactly the run of whitespace at the front. */
  lemma {:induction false} TrimLeftSpec(s: string)
    ensures var r := TrimLeft(s);
      && |r| <= |s| && r == s[|s| - |r|..]
      && (r == [] || !IsSpace(r[0]))
      && (forall k :: 0 <= k < |s| - |r| ==> IsSpace(s[k]))
    decreases |s|
  {
    if |s| > 0 && IsSpace(s[0]) {
      TrimLeftSpec(s[1..]);
    }
  }

  /** TrimRight removes exactly the run of whitespace at the back. */
  lemma {:induction false} TrimRightSpec(s: string)
    ensures var r := TrimRight(s);
      && |r| <= |s| && r == s[..|r|]
      && (r == [] || !IsSpace(r[|r| - 1]))
      && (forall k :: |r| <= k < |s| ==> IsSpace(s[k]))
    decreases |s|
  {
    if |s| > 0 && IsSpace(s[|s| - 1]) {
      TrimRightSpec(s[..|s| - 1]);
    }
  }

  /**
   * TrimSpace keeps the longest infix of `s` that neither starts nor ends
   * with whitespace: what it drops on either side is whitespace only.
   */
  lemma TrimSpaceSpec(s: string)
    ensures var r := TrimSpace(s); var i := |s| - |TrimLeft(s)|;
      && 0 <= i && i + |r| <= |s| && r == s[i..i + |r|]
      && (forall k :: 0 <= k < i ==> IsSpace(s[k]))
      && (forall k :: i + |r| <= k < |s| ==> IsSpace(s[k]))
      && (r == [] || (!IsSpace(r[0]) && !IsSpace(r[|r| - 1])))
  {
    var l := TrimLeft(s);
    TrimLeftSpec(s);
    TrimRightSpec(l);
    var r := TrimRight(l);
    assert r == s[|s| - |l|..][..|r|] == s[|s| - |l|..|s| - |l| + |r|];
    assert forall k :: |s| - |l| + |r| <= k < |s| ==> s[k] == l[k - (|s| - |l|)];
  }

  /** `bytes.HasPrefix`. */
  predicate HasPrefix(s: string, p: string) {
    |p| <= |s| && s[..|p|] == p
  }

  /** `bytes.TrimPrefix`: `s` without the prefix `p`, or `s` itself when `p` is not a prefix. */
  function TrimPrefix(s: string, p: string): (r: string)
    ensures HasPrefix(s, p) ==> p + r == s
    ensures !HasPrefix(s, p) ==> r == s
  {
    if HasPrefix(s, p) then s[|p|..] else s
  }
}

=== FILE: transport.dfy ===
/**
 * What the two messaging front ends (WeCom and the WeChat official
 * account) share: what a handler writes on the HTTP response, the decoded
 * text message, the text reply, and the reply envelope.
 *
 * XML decoding and encoding and the response writer are not modelled: a
 * decoded message is an input and a reply is what would be marshalled.
 */
module Transport {
  const StatusBadRequest := 400
  const StatusInternalServerError := 500

  const UnsupportedMessageType := "Unsupported message type"
  const FailedToParseText := "Failed to parse text message"
  const NoTextHandler := "No text message handler registered"
  const FailedToHandleText := "Failed to handle text message"
  const TextType := "text"

  /**
   * What a handler leaves on the response. `Busy`: the 500 error naming the
   * message id and sender that is already being processed. `Marshalled`:
   * the XML form of a reply. `Nothing`: the handler wrote nothing.
   */
  datatype Written =
    | Error(status: int, text: string)
    | Busy(msgId: int, fromUser: string)
    | Body(body: string)
    | Marshalled(reply: TextMessageRsp)
    | ErrorThenBody(status: int, text: string, body: string)
    | Nothing

  /** The common header of every request message. */
  datatype MessageReq = MessageReq(toUser: string, fromUser: string, createTime: int, msgType: string)

  /** A text request: the header, the text and the 64-bit message id. */
  datatype TextMessageReq = TextMessageReq(header: MessageReq, content: string, msgId: int)

  /** A text reply as it is marshalled. */
  datatype TextMessageRsp = TextMessageRsp(toUser: string, fromUser: string, createTime: int, msgType: string, content: string)

  /**
   * What the registered business handler returned: an error, a text reply,
   * or something that is not a text reply (including no reply), which the
   * unchecked type assertion turns into a nil pointer.
   */
  datatype LogicOutcome = LogicFailed | RepliedText(rsp: TextMessageRsp) | RepliedOther

  /**
   * The reply envelope: the reply goes back to the sender, from the
   * account the request was addressed to, stamped `now`, typed text; its
   * text is the handler's.
   */
  function Envelope(req: TextMessageReq, rsp: TextMessageRsp, now: int): (r: TextMessageRsp)
    ensures r.toUser == req.header.fromUser && r.fromUser == req.header.toUser
    ensures r.createTime == now && r.msgType == TextType
    ensures r.content == rsp.content
  {
    rsp.(toUser := req.header.fromUser, fromUser := req.header.toUser, createTime := now, msgType := TextType)
  }
}

=== FILE: wechat.dfy ===
/**
 * The WeChat official-account front end: the signature check that gates
 * every request, the message-type dispatch table, and the text-message
 * handler with its per-`MsgId` in-flight set.
 *
 * The handler takes the mutex itself, and its duplicate branch returns
 * while still holding it; the mutex is the `locked` flag of `Gate`, and a
 * call that would wait on a held mutex forever is `Blocked`.
 *
 * SHA-1 and its hex rendering are a function parameter; XML and HTTP are
 * not modelled.
 */
module WeChat {
  import opened Wrappers
  import opened Transport

  // ----- the signature -----

  /**
   * Byte-wise lexicographic order, as Go compares strings. Comparing
   * characters by code point gives the same order as comparing their
   * UTF-8 encodings byte by byte.
   */
  predicate LessEq(a: string, b: string)
    decreases |a|
  {
    if a == [] then true
    else if b == [] then false
    else if a[0] != b[0] then a[0] < b[0]
    else LessEq(a[1..], b[1..])
  }

  lemma {:induction false} LessEqTotal(a: string, b: string)
    ensures LessEq(a, b) || LessEq(b, a)
    decreases |a|
  {
    if a != [] && b != [] && a[0] == b[0] {
      LessEqTotal(a[1..], b[1..]);
    }
  }

  lemma {:induction false} LessEqAntisymmetric(a: string, b: string)
    requires LessEq(a, b) && LessEq(b, a)
    ensures a == b
    decreases |a|
  {
    if a != [] && b != [] {
      LessEqAntisymmetric(a[1..], b[1..]);
      assert a == [a[0]] + a[1..] && b == [b[0]] + b[1..];
    }
  }

  lemma {:induction false} LessEqTransitive(a: string, b: string, c: string)
    requires LessEq(a, b) && LessEq(b, c)
    ensures LessEq(a, c)
    decreases |a|
  {
    if a != [] && b != [] && c != [] && a[0] == b[0] && b[0] == c[0] {
      LessEqTransitive(a[1..], b[1..], c[1..]);
    }
  }

  /** `s` holds `a`, `b` and `c`, each once, in some order. */
  predicate IsArrangement(s: seq<string>, a: string, b: string, c: string) {
    s == [a, b, c] || s == [a, c, b] || s == [b, a, c] || s == [b, c, a] || s == [c, a, b] || s == [c, b, a]
  }

  /** The three strings in ascending order, as `sort.Strings` leaves them. */
  function Sort3(a: string, b: string, c: string): (s: seq<string>)
    ensures |s| == 3 && LessEq(s[0], s[1]) && LessEq(s[1], s[2])
    ensures IsArrangement(s, a, b, c)
  {
    LessEqTotal(a, b);
    LessEqTotal(a, c);
    LessEqTotal(b, c);
    if LessEq(a, b) then
      if LessEq(b, c) then [a, b, c]
      else if LessEq(a, c) then [a, c, b]
      else [c, a, b]
    else
      if LessEq(a, c) then [b, a, c]
      else if LessEq(b, c) then [b, c, a]
      else [c, b, a]
  }

  /**
   * Exchanging the last two strings does not change the sorted order:
   * the order is total, so equal strings are the only ties.
   */
  lemma Sort3SwapLast(a: string, b: string, c: string)
    ensures Sort3(a, b, c) == Sort3(a, c, b)
  {
    LessEqTotal(a, b); LessEqTotal(a, c); LessEqTotal(b, c);
    if LessEq(a, b) && LessEq(b, a) { LessEqAntisymmetric(a, b); }
    if LessEq(a, c) && LessEq(c, a) { LessEqAntisymmetric(a, c); }
    if LessEq(b, c) && LessEq(c, b) { LessEqAntisymmetric(b, c); }
    if LessEq(a, b) && LessEq(b, c) { LessEqTransitive(a, b, c); }
    if LessEq(a, c) && LessEq(c, b) { LessEqTransitive(a, c, b); }
    if LessEq(b, a) && LessEq(a, c) { LessEqTransitive(b, a, c); }
    if LessEq(c, a) && LessEq(a, b) { LessEqTransitive(c, a, b); }
    if LessEq(b, c) && LessEq(c, a) { LessEqTransitive(b, c, a); }
    if LessEq(c, b) && LessEq(b, a) { LessEqTransitive(c, b, a); }
  }

  /**
   * An ascending arrangement of three strings is unique: whatever order
   * they are given in, `Sort3` returns it.
   */
  lemma Sort3Unique(a: string, b: string, c: string, x: string, y: string, z: string)
    requires IsArrangement([x, y, z], a, b, c) && LessEq(x, y) && LessEq(y, z)
    ensures Sort3(a, b, c) == [x, y, z]
  {
    var s := Sort3(a, b, c);
    LessEqTransitive(x, y, z);
    LessEqTotal(x, s[0]); LessEqTotal(z, s[2]);
    LessEqTransitive(s[0], s[1], s[2]);
    if LessEq(x, s[0]) && LessEq(s[0], x) { LessEqAntisymmetric(x, s[0]); }
    if LessEq(z, s[2]) && LessEq(s[2], z) { LessEqAntisymmetric(z, s[2]); }
  }

  /**
   * The string whose SHA-1 is compared: the three strings joined without a
   * separator, in ascending byte order.
   */
  function SignatureInput(token: string, timestamp: string, nonce: string): (r: string)
    ensures |r| == |token| + |timestamp| + |nonce|
    ensures LessEq(token, timestamp) && LessEq(timestamp, nonce) ==> r == token + timestamp + nonce
  {
    var s := Sort3(token, timestamp, nonce);
    s[0] + s[1] + s[2]
  }

  /** Any ascending arrangement of the three strings, joined, is the signature input. */
  lemma SignatureInputIsSortedJoin(token: string, timestamp: string, nonce: string, x: string, y: string, z: string)
    requires IsArrangement([x, y, z], token, timestamp, nonce) && LessEq(x, y) && LessEq(y, z)
    ensures SignatureInput(token, timestamp, nonce) == x + y + z
  {
    Sort3Unique(token, timestamp, nonce, x, y, z);
  }

  /** The hex rendering of SHA-1 of a string. */
  type Sha1Hex = string -> string

  /**
   * `validateSignature`: the hex SHA-1 of the signature input equals the
   * given signature; for arguments already in ascending order that input
   * is the three strings joined as given.
   */
  function ValidateSignature(sha1: Sha1Hex, token: string, signature: string, timestamp: string, nonce: string): (ok: bool)
    ensures LessEq(token, timestamp) && LessEq(timestamp, nonce) ==> (ok <==> sha1(token + timestamp + nonce) == signature)
  {
    sha1(SignatureInput(token, timestamp, nonce)) == signature
  }

  /** A request is accepted exactly when the hex SHA-1 of any ascending arrangement of the three strings, joined, is the signature. */
  lemma ValidateSignatureSorted(sha1: Sha1Hex, token: string, signature: string, timestamp: string, nonce: string,
                                x: string, y: string, z: string)
    requires IsArrangement([x, y, z], token, timestamp, nonce) && LessEq(x, y) && LessEq(y, z)
    ensures ValidateSignature(sha1, token, signature, timestamp, nonce) <==> sha1(x + y + z) == signature
  {
    SignatureInputIsSortedJoin(token, timestamp, nonce, x, y, z);
  }

  /** So swapping the timestamp and the nonce never changes whether a request is accepted. */
  lemma ValidationIgnoresSwap(sha1: Sha1Hex, token: string, signature: string, timestamp: string, nonce: string)
    ensures ValidateSignature(sha1, token, signature, timestamp, nonce) == ValidateSignature(sha1, token, signature, nonce, timestamp)
  {
    Sort3SwapLast(token, timestamp, nonce);
  }

  // ----- message types and dispatch -----

  /** The message types this package declares, all of them registered. */
  datatype MessageType = Text | Image | Voice | Video | ShortVideo | Location | Link | Event

  function TypeName(t: MessageType): string {
    match t
    case Text => "text"
    case Image => "image"
    case Voice => "voice"
    case Video => "video"
    case ShortVideo => "shortvideo"
    case Location => "location"
    case Link => "link"
    case Event => "event"
  }

  /** The handler registered for the type named `name`: the lookup in the dispatch table. */
  function HandlerFor(name: string): (r: Option<MessageType>)
    ensures r.Some? ==> TypeName(r.value) == name
    ensures r.None? <==> forall t: MessageType :: TypeName(t) != name
  {
    if name == "text" then Some(Text)
    else if name == "image" then Some(Image)
    else if name == "voice" then Some(Voice)
    else if name == "video" then Some(Video)
    else if name == "shortvideo" then Some(ShortVideo)
    else if name == "location" then Some(Location)
    else if name == "link" then Some(Link)
    else if name == "event" then Some(Event)
    else None
  }

  // ----- the text-message handler -----

  /** The ids of the text messages being handled, and whether the mutex is held. */
  datatype Gate = Gate(inFlight: set<int>, locked: bool)

  /**
   * What the text handler did. `Blocked`: it waited on a mutex nobody will
   * release. `Panicked`: the business handler returned no text reply and
   * the envelope dereferenced the nil pointer; the deferred release ran.
   */
  datatype TextHandled =
    | TextHandled(gate: Gate, written: Written, called: bool, reply: Option<TextMessageRsp>)
    | Panicked(gate: Gate)
    | Blocked

  /**
   * `handleTextMessage`. A duplicate id gets the busy error and the
   * mutex stays held; a new id is inserted, the mutex released, and the
   * deferred call removes it again on every later exit.
   */
  function HandleTextMessage(g: Gate, parsed: Option<TextMessageReq>,
                             logic: Option<TextMessageReq -> LogicOutcome>, now: int): (r: TextHandled)
    ensures parsed.None? ==> r == TextHandled(g, Error(StatusBadRequest, FailedToParseText), false, None)
    ensures parsed.Some? && g.locked ==> r == Blocked
    ensures parsed.Some? && !g.locked && parsed.value.msgId in g.inFlight ==>
      r == TextHandled(g.(locked := true), Busy(parsed.value.msgId, parsed.value.header.fromUser), false, None)
    ensures parsed.Some? && !g.locked && parsed.value.msgId !in g.inFlight ==> !r.Blocked? && r.gate == g
    ensures r.TextHandled? && r.called ==> parsed.Some? && parsed.value.msgId !in g.inFlight && logic.Some?
    ensures r.TextHandled? && r.reply.Some? ==>
      r.called && logic.value(parsed.value).RepliedText?
      && r.reply.value == Envelope(parsed.value, logic.value(parsed.value).rsp, now)
      && r.written == Marshalled(r.reply.value)
  {
    match parsed
    case None => TextHandled(g, Error(StatusBadRequest, FailedToParseText), false, None)
    case Some(msg) =>
      if g.locked then Blocked
      else if msg.msgId in g.inFlight then
        // The error is written and the handler returns with the mutex held.
        TextHandled(g.(locked := true), Busy(msg.msgId, msg.header.fromUser), false, None)
      else
        var held := Gate(g.inFlight + {msg.msgId}, false);
        var released := Gate(held.inFlight - {msg.msgId}, false);
        match logic
        case None => TextHandled(released, Error(StatusInternalServerError, NoTextHandler), false, None)
        case Some(handler) =>
          match handler(msg)
          case LogicFailed => TextHandled(released, Error(StatusInternalServerError, FailedToHandleText), true, None)
          case RepliedOther => Panicked(released)
          case RepliedText(rsp) =>
            var reply := Envelope(msg, rsp, now);
            TextHandled(released, Marshalled(reply), true, Some(reply))
  }

  /** After a duplicate, every later text message blocks: the mutex is never released. */
  lemma DuplicateLeaksMutex(g: Gate, msg: TextMessageReq, logic: Option<TextMessageReq -> LogicOutcome>, now: int,
                            next: TextMessageReq, later: int)
    requires !g.locked && msg.msgId in g.inFlight
    ensures var r := HandleTextMessage(g, Some(msg), logic, now);
      && r.TextHandled? && !r.called && r.gate.locked
      && HandleTextMessage(r.gate, Some(next), logic, later) == Blocked
  {
  }

  /** A new id is handled exactly once and released on every exit, so the gate is as it was. */
  lemma AcceptedIdIsReleased(g: Gate, msg: TextMessageReq, logic: Option<TextMessageReq -> LogicOutcome>, now: int)
    requires !g.locked && msg.msgId !in g.inFlight
    ensures var r := HandleTextMessage(g, Some(msg), logic, now);
      && !r.Blocked? && r.gate == g
      && (r.TextHandled? ==> (r.called <==> logic.Some?))
  {
  }

  // ----- serving a request -----

  datatype Method = Get | Post | OtherMethod

  /** What one request did to the gate and to the response. */
  datatype Served = Served(gate: Gate, written: Written, handled: Option<TextHandled>) | ServeBlocked

  /**
   * `ServeHTTP`: the signature is checked first and a failure is a 400
   * "Invalid signature" before anything else; a GET echoes `echostr`; a
   * POST reads the body, decodes the header (each error written as a
   * 500 or a 400) and dispatches on its type.
   */
  function ServeHTTP(g: Gate, sha1: Sha1Hex, token: string, signature: string, timestamp: string, nonce: string,
                     verb: Method, echostr: string, body: Result<string, string>,
                     header: Result<MessageReq, string>, parsed: Option<TextMessageReq>,
                     logic: Option<TextMessageReq -> LogicOutcome>, now: int): (r: Served)
    ensures !ValidateSignature(sha1, token, signature, timestamp, nonce) ==>
      r == Served(g, Error(StatusBadRequest, InvalidSignature), None)
    ensures ValidateSignature(sha1, token, signature, timestamp, nonce) && verb == Get ==>
      r == Served(g, Body(echostr), None)
    ensures r.Served? && r.handled.Some? ==>
      ValidateSignature(sha1, token, signature, timestamp, nonce) && verb == Post && body.Ok?
      && header.Ok? && HandlerFor(header.value.msgType) == Some(Text)
    ensures (ValidateSignature(sha1, token, signature, timestamp, nonce) && verb == Post && body.Ok?
      && header.Ok? && HandlerFor(header.value.msgType).None?) ==>
      r == Served(g, Error(StatusBadRequest, UnsupportedMessageType), None)
  {
    if !ValidateSignature(sha1, token, signature, timestamp, nonce) then
      Served(g, Error(StatusBadRequest, InvalidSignature), None)
    else match verb
      case Get => Served(g, Body(echostr), None)
      case OtherMethod => Served(g, Nothing, None)
      case Post =>
        match body
        case Err(e) => Served(g, Error(StatusInternalServerError, e), None)
        case Ok(_) =>
          match header
          case Err(e) => Served(g, Error(StatusBadRequest, e), None)
          case Ok(h) =>
            match HandlerFor(h.msgType)
            case None => Served(g, Error(StatusBadRequest, UnsupportedMessageType), None)
            case Some(t) =>
              if t != Text then Served(g, Nothing, None)
              else match HandleTextMessage(g, parsed, logic, now)
                case Blocked => ServeBlocked
                case Panicked(g') => Served(g', Nothing, Some(Panicked(g')))
                case TextHandled(g', written, called, reply) => Served(g', written, Some(TextHandled(g', written, called, reply)))
  }

  const InvalidSignature := "Invalid signature"

  /** A request with a bad signature never reaches a handler and changes nothing, whatever its method or body. */
  lemma BadSignatureIsRejectedFirst(g: Gate, sha1: Sha1Hex, token: string, signature: string, timestamp: string, nonce: string,
                                    verb: Method, echostr: string, body: Result<string, string>,
                                    header: Result<MessageReq, string>, parsed: Option<TextMessageReq>,
                                    logic: Option<TextMessageReq -> LogicOutcome>, now: int)
    requires sha1(SignatureInput(token, timestamp, nonce)) != signature
    ensures var r := ServeHTTP(g, sha1, token, signature, timestamp, nonce, verb, echostr, body, header, parsed, logic, now);
      r.Served? && r.gate == g && r.handled.None? && r.written == Error(StatusBadRequest, InvalidSignature)
  {
  }
}

=== FILE: wecom.dfy ===
/**
 * The WeCom (enterprise WeChat) application front end: the message-type
 * dispatch table, the text-message handler with its per-`MsgId`
 * in-flight set, the access-token cache, and the error conditions of
 * pushing a message.
 *
 * Message decryption and encryption, XML and JSON, and HTTP are not
 * modelled: their results are inputs. The in-flight set's mutex is
 * released by a deferred call inside a closure on every path, so it is
 * not tracked.
 */
module WeCom {
  import opened Wrappers
  import opened Transport

  // ----- message types and dispatch -----

  /** The message types this package declares. */
  datatype MessageType = Text | Image | Voice | Video | File | Location | Link | Event | News | Markdown

  function TypeName(t: MessageType): string {
    match t
    case Text => "text"
    case Image => "image"
    case Voice => "voice"
    case Video => "video"
    case File => "file"
    case Location => "location"
    case Link => "link"
    case Event => "event"
    case News => "news"
    case Markdown => "markdown"
  }

  /** The types with a registered request handler. */
  predicate Registered(t: MessageType) {
    t in {Text, Image, Voice, Video, Location, Link, Event}
  }

  /** The declared type named `name`, if any. */
  function ParseType(name: string): (r: Option<MessageType>)
    ensures r.Some? ==> TypeName(r.value) == name
    ensures r.None? ==> forall t: MessageType :: TypeName(t) != name
  {
    if name == "text" then Some(Text)
    else if name == "image" then Some(Image)
    else if name == "voice" then Some(Voice)
    else if name == "video" then Some(Video)
    else if name == "file" then Some(File)
    else if name == "location" then Some(Location)
    else if name == "link" then Some(Link)
    else if name == "event" then Some(Event)
    else if name == "news" then Some(News)
    else if name == "markdown" then Some(Markdown)
    else None
  }

  /** The handler registered for the type named `name`: the lookup in the dispatch table. */
  function HandlerFor(name: string): (r: Option<MessageType>)
    ensures r.Some? <==> exists t: MessageType :: Registered(t) && TypeName(t) == name
    ensures r.Some? ==> Registered(r.value) && TypeName(r.value) == name
  {
    match ParseType(name)
    case Some(t) => if Registered(t) then Some(t) else None
    case None => None
  }

  /** Exactly seven types are dispatched: `file`, `news` and `markdown` are declared but unhandled, and so is `shortvideo`. */
  lemma DispatchTable()
    ensures forall t: MessageType :: HandlerFor(TypeName(t)).Some? <==> t !in {File, News, Markdown}
    ensures HandlerFor("shortvideo").None?
  {
    assert HandlerFor("shortvideo").None? by {
      forall t: MessageType ensures TypeName(t) != "shortvideo" {
        assert TypeName(t)[0] != 's' || |TypeName(t)| != 10;
      }
    }
  }

  // ----- the text-message handler -----

  /** The ids of the text messages being handled. */
  type InFlight = set<int>

  /**
   * What the text handler did: the in-flight set afterwards, what it wrote,
   * whether the business handler ran, and the reply it marshalled.
   * `Panicked`: the business handler returned no text reply and the
   * envelope dereferenced the nil pointer; the deferred release still ran.
   */
  datatype TextHandled =
    | TextHandled(inFlight: InFlight, written: Written, called: bool, reply: Option<TextMessageRsp>)
    | Panicked(inFlight: InFlight)

  /**
   * `handleTextMessage`. `parsed` is the text message decoded from the
   * body; `logic` is the registered business handler, applied to it;
   * `encrypted` is what encrypting the marshalled reply gave: the body and
   * the error, if any.
   */
  function HandleTextMessage(inFlight: InFlight, parsed: Option<TextMessageReq>,
                             logic: Option<TextMessageReq -> LogicOutcome>,
                             now: int, encrypted: TextMessageRsp -> (string, Option<string>)): (r: TextHandled)
    ensures r.inFlight == inFlight
    ensures parsed.None? ==> r == TextHandled(inFlight, Error(StatusBadRequest, FailedToParseText), false, None)
    ensures parsed.Some? && parsed.value.msgId in inFlight ==>
      r == TextHandled(inFlight, Busy(parsed.value.msgId, parsed.value.header.fromUser), false, None)
    ensures r.TextHandled? && r.called ==> parsed.Some? && parsed.value.msgId !in inFlight && logic.Some?
    ensures r.TextHandled? && r.reply.Some? ==>
      r.called && logic.value(parsed.value).RepliedText?
      && r.reply.value == Envelope(parsed.value, logic.value(parsed.value).rsp, now)
  {
    match parsed
    case None => TextHandled(inFlight, Error(StatusBadRequest, FailedToParseText), false, None)
    case Some(msg) =>
      if msg.msgId in inFlight then TextHandled(inFlight, Busy(msg.msgId, msg.header.fromUser), false, None)
      else
        var held := inFlight + {msg.msgId};
        var h := Handle(msg, logic, now, encrypted);
        // The deferred release runs on every exit, the panic included.
        if h.Panicked? then Panicked(held - {msg.msgId})
        else h.(inFlight := held - {msg.msgId})
  }

  /** The part of the handler that runs while `msg`'s id is held. */
  function Handle(msg: TextMessageReq, logic: Option<TextMessageReq -> LogicOutcome>,
                  now: int, encrypted: TextMessageRsp -> (string, Option<string>)): (r: TextHandled)
    ensures r.TextHandled? ==> r.inFlight == {}
    ensures r.Panicked? <==> logic.Some? && logic.value(msg).RepliedOther?
    ensures logic.None? ==> r == TextHandled({}, Error(StatusInternalServerError, NoTextHandler), false, None)
    ensures logic.Some? && logic.value(msg).LogicFailed? ==>
      r == TextHandled({}, Error(StatusInternalServerError, FailedToHandleText), true, None)
    ensures logic.Some? && logic.value(msg).RepliedText? ==>
      var reply := Envelope(msg, logic.value(msg).rsp, now);
      var (body, err) := encrypted(reply);
      r == TextHandled({}, if err.Some? then ErrorThenBody(StatusInternalServerError, err.value, body) else Body(body), true, Some(reply))
  {
    match logic
    case None => TextHandled({}, Error(StatusInternalServerError, NoTextHandler), false, None)
    case Some(handler) =>
      match handler(msg)
      case LogicFailed => TextHandled({}, Error(StatusInternalServerError, FailedToHandleText), true, None)
      case RepliedOther => Panicked({})
      case RepliedText(rsp) =>
        var reply := Envelope(msg, rsp, now);
        var (body, err) := encrypted(reply);
        // A failed encryption writes the error and then the (empty) body as well.
        TextHandled({}, if err.Some? then ErrorThenBody(StatusInternalServerError, err.value, body) else Body(body), true, Some(reply))
  }

  /** A duplicate is rejected and the business handler is not called; otherwise it is called exactly when one is registered. */
  lemma DuplicateIsRejected(inFlight: InFlight, msg: TextMessageReq,
                            logic: Option<TextMessageReq -> LogicOutcome>,
                            now: int, encrypted: TextMessageRsp -> (string, Option<string>))
    ensures var r := HandleTextMessage(inFlight, Some(msg), logic, now, encrypted);
      && (msg.msgId in inFlight ==> r.TextHandled? && !r.called && r.written == Busy(msg.msgId, msg.header.fromUser))
      && (msg.msgId !in inFlight && logic.Some? && !logic.value(msg).RepliedOther? ==> r.TextHandled? && r.called)
      && (msg.msgId !in inFlight && logic.None? ==> r.TextHandled? && !r.called)
  {
  }

  /** The text reply carries the handler's text back to the sender, from the addressed account, as a text message. */
  lemma ReplyIsEnvelope(inFlight: InFlight, msg: TextMessageReq, rsp: TextMessageRsp,
                        logic: TextMessageReq -> LogicOutcome,
                        now: int, encrypted: TextMessageRsp -> (string, Option<string>))
    requires msg.msgId !in inFlight && logic(msg) == RepliedText(rsp)
    ensures var r := HandleTextMessage(inFlight, Some(msg), Some(logic), now, encrypted);
      && r.TextHandled? && r.reply.Some?
      && r.reply.value.toUser == msg.header.fromUser && r.reply.value.fromUser == msg.header.toUser
      && r.reply.value.msgType == TextType && r.reply.value.content == rsp.content
  {
  }

  // ----- request dispatch -----

  /** What one POST did to the text in-flight set and to the response. */
  datatype Dispatched = Dispatched(inFlight: InFlight, written: Written, handled: Option<TextHandled>)

  /**
   * `handleMessageRequest`: the header is decoded first (an error is a 400),
   * an unregistered type is a 400 "Unsupported message type", a text message
   * goes to the text handler and every other registered type to a handler
   * that writes nothing.
   */
  function HandleMessageRequest(inFlight: InFlight, header: Result<MessageReq, string>,
                                parsed: Option<TextMessageReq>,
                                logic: Option<TextMessageReq -> LogicOutcome>,
                                now: int, encrypted: TextMessageRsp -> (string, Option<string>)): (r: Dispatched)
    ensures r.inFlight == inFlight
    ensures header.Err? ==> r.written == Error(StatusBadRequest, header.error) && r.handled.None?
    ensures header.Ok? && HandlerFor(header.value.msgType).None? ==>
      r.written == Error(StatusBadRequest, UnsupportedMessageType) && r.handled.None?
    ensures r.handled.Some? <==> header.Ok? && HandlerFor(header.value.msgType) == Some(Text)
    ensures header.Ok? && HandlerFor(header.value.msgType).Some? && HandlerFor(header.value.msgType) != Some(Text) ==>
      r.written == Nothing
  {
    match header
    case Err(e) => Dispatched(inFlight, Error(StatusBadRequest, e), None)
    case Ok(h) =>
      match HandlerFor(h.msgType)
      case None => Dispatched(inFlight, Error(StatusBadRequest, UnsupportedMessageType), None)
      case Some(t) =>
        if t == Text then
          var handled := HandleTextMessage(inFlight, parsed, logic, now, encrypted);
          Dispatched(handled.inFlight, if handled.TextHandled? then handled.written else Nothing, Some(handled))
        else Dispatched(inFlight, Nothing, None)
  }

  // ----- access token -----

  /** The cached token and the Unix time until which it is used. */
  datatype TokenCache = TokenCache(token: string, expiry: int)

  /**
   * The result of asking the token endpoint: a transport, read or JSON
   * failure, or the decoded answer.
   */
  datatype Fetch = FetchFailed | Fetched(accessToken: string, expiresIn: int, errCode: int)

  datatype TokenResult = TokenResult(token: string, cache: TokenCache, fetched: bool)

  /**
   * `getAccessToken`: the cached token while its expiry is after `now`;
   * otherwise the endpoint is asked, and only an answer with error code 0
   * replaces the cache, until `now` plus the lifetime it gives.
   */
  function GetAccessToken(c: TokenCache, now: int, fetch: Fetch): (r: TokenResult)
    ensures !r.fetched <==> c.expiry > now
    ensures !r.fetched ==> r.token == c.token && r.cache == c
    ensures r.fetched && fetch.Fetched? && fetch.errCode == 0 ==>
      r.token == fetch.accessToken && r.cache == TokenCache(fetch.accessToken, now + fetch.expiresIn)
    ensures r.fetched && !(fetch.Fetched? && fetch.errCode == 0) ==> r.token == "" && r.cache == c
  {
    if c.expiry > now then TokenResult(c.token, c, false)
    else match fetch
      case FetchFailed => TokenResult("", c, true)
      case Fetched(token, expiresIn, errCode) =>
        if errCode != 0 then TokenResult("", c, true)
        else TokenResult(token, TokenCache(token, now + expiresIn), true)
  }

  /** A token fetched with a positive lifetime is served from the cache, with no further fetch, until that lifetime has passed. */
  lemma FetchedTokenIsReused(c: TokenCache, now: int, token: string, expiresIn: int, later: int, fetch: Fetch)
    requires c.expiry <= now && now <= later < now + expiresIn
    ensures var first := GetAccessToken(c, now, Fetched(token, expiresIn, 0));
      GetAccessToken(first.cache, later, fetch) == TokenResult(token, first.cache, false)
  {
  }

  /** A failed refresh leaves the expired cache as it was, so the next call asks again. */
  lemma FailedRefreshRetries(c: TokenCache, now: int, fetch: Fetch, later: int, next: Fetch)
    requires c.expiry <= now <= later && !(fetch.Fetched? && fetch.errCode == 0)
    ensures var first := GetAccessToken(c, now, fetch);
      first.token == "" && GetAccessToken(first.cache, later, next).fetched
  {
  }

  // ----- pushing a message -----

  /** The result of posting the message: a transport, read or JSON failure, or the decoded answer. */
  datatype Send = SendFailed(reason: string) | Answered(errCode: int, errMsg: string)

  /** Why a push failed. */
  datatype PushError = InvalidToken | SendError(reason: string) | Rejected(errCode: int, errMsg: string)

  datatype Pushed = Pushed(cache: TokenCache, sent: bool, err: Option<PushError>)

  /**
   * `pushMessage`: an empty token fails with "access token is invalid"
   * without sending; otherwise the message is sent and fails on a transport
   * error or a non-zero error code.
   */
  function PushMessage(c: TokenCache, now: int, fetch: Fetch, send: Send): (r: Pushed)
    ensures r.cache == GetAccessToken(c, now, fetch).cache
    ensures r.sent <==> GetAccessToken(c, now, fetch).token != ""
    ensures !r.sent ==> r.err == Some(InvalidToken)
    ensures r.err.None? <==> r.sent && send.Answered? && send.errCode == 0
    ensures r.sent && send.SendFailed? ==> r.err == Some(SendError(send.reason))
    ensures r.sent && send.Answered? && send.errCode != 0 ==> r.err == Some(Rejected(send.errCode, send.errMsg))
  {
    var t := GetAccessToken(c, now, fetch);
    if t.token == "" then Pushed(t.cache, false, Some(InvalidToken))
    else match send
      case SendFailed(reason) => Pushed(t.cache, true, Some(SendError(reason)))
      case Answered(errCode, errMsg) =>
        if errCode != 0 then Pushed(t.cache, true, Some(Rejected(errCode, errMsg)))
        else Pushed(t.cache, true, None)
  }

  /** A push succeeds exactly when a non-empty token was at hand and the server answered with error code 0. */
  lemma PushSucceedsIff(c: TokenCache, now: int, fetch: Fetch, send: Send)
    ensures PushMessage(c, now, fetch, send).err.None? <==>
      (if c.expiry > now then c.token != "" else fetch.Fetched? && fetch.errCode == 0 && fetch.accessToken != "")
      && send.Answered? && send.errCode == 0
  {
  }
}

=== FILE: wrappers.dfy ===
/** Small failure-carrying datatypes shared by the whole model. */
module Wrappers {

  /** A value that may be missing (a Go nil pointer, an absent map key, a failed decode). */
  datatype Option<+T> = None | Some(value: T) {

    /** Returns the value, or `default` when there is none. */
    function GetOr(default: T): T {
      match this
      case Some(v) => v
      case None => default
    }
  }

  /** The result of a Go call that returns `(value, error)`. */
  datatype Result<+T, +E> = Ok(value: T) | Err(error: E)
}
